=== FILE: README.md ===
# Grid pathfinding agents, modelled in Dafny

This project models the core of a small grid simulation. In it, two agents collect numbered
tasks on an N x N board that also carries barrier cells.

`environment.py` builds the board:
- It places tasks on empty cells, numbering them 1, 2, ... in placement order.
- It places barriers on cells that are still empty.
- It answers the queries the search uses: bounds, passability, the four neighbours in the fixed order +x, -x, +y, -y, and a unit step cost.

`agent.py` holds the agent:
- `find_path_to` is one best-first search. It is Uniform Cost Search when the priority is the cost so far, and A* when the Manhattan distance to the target is added.
- `find_nearest_task` is Python's `min` over the task dictionary, keyed on Manhattan distance.
- `move` steps one cell along the stored path and picks up a task found there.
- The loop in `run.py` lets each agent either plan a path to its nearest task or take one step.

The modules follow that structure:
- `Wrappers` holds `Option`.
- `OrderedMap` models the insertion-ordered `dict` behind `task_locations`.
- `Coord` holds cells and the Manhattan distance.
- `GridWorld` holds the board queries.
- `Placement` models the constructor.
- `Paths` defines walks along `neighbors`.
- `Search` models `find_path_to`.
- `Agent` models selection, pickup, moving and the per-tick rule.

The search is modelled as follows:
- The heap becomes a multiset of `(priority, cell)` entries. Each pop takes the least entry in Python's tuple order, which is unique.
- There is no closed set, exactly as in the source: a cell whose cost improves is pushed again, and stale entries are expanded again.
- The loop is proved to terminate. The measure is the sum of the recorded costs plus a charge for every cell not yet recorded.
- The result is proved to be a shortest path, in both modes, whenever the target is reachable.
- If the target is not reachable, the model returns what the code returns: the chain of predecessors back from the last cell popped.

## Model

| member | source | states |
|---|---|---|
| OrderedMap.Find | agent.py:39 | `key in task_locations` holds exactly when some item carries the key; the index found is the first such item |
| OrderedMap.Pop | agent.py:39-40 | on a key that is present, `pop` removes exactly the first item with the key and returns its value, and every other item stays, in order; on a missing key the map is returned unchanged with no value, which stands for the failed `in` test that guards the `pop` |
| OrderedMap.Keys | agent.py:39 | the keys of the map form a set with exactly the members `in` accepts, and there are no more of them than items |
| OrderedMap.PopConservesValues | agent.py:40 | the popped value together with the remaining values is the original multiset of values |
| OrderedMap.PopRemovesKey | agent.py:39-40 | on a map with distinct keys, after `pop` the key is gone and the keys stay distinct |
| Coord.Manhattan | agent.py:86-88 | `heuristic` is a natural number and is zero exactly when the two cells are equal |
| Agent.Spawn | agent.py:14-19 | `Agent.__init__`: the agent starts at the given cell with no path, not moving, a zero `task_completed` counter and an empty `completed_tasks` list |
| Agent.SpawnOk | agent.py:14-19 | a new agent is idle with an empty path and no tasks, so its counter matches its record and its path is trivially a walk |
| Agent.HeuristicConsistent | agent.py:86-88 | the heuristic is consistent: across any `neighbors` step it falls by at most `step_cost` |
| Paths.ManhattanBound | agent.py:86-88 | the heuristic is admissible: along any chain of neighbours it never exceeds the number of steps left |
| GridWorld.InBounds | environment.py:24-26 | `is_within_bounds`: both coordinates lie in `0 .. grid_size - 1` |
| GridWorld.IsPassable | environment.py:28-29 | `is_passable`: a cell is passable exactly when it is not a barrier; bounds are checked separately |
| GridWorld.StepCost | environment.py:40-41 | `step_cost`: every move costs 1 |
| GridWorld.KeepAdmissible | environment.py:33-38 | the filter keeps exactly the candidates that are in bounds and not barriers, in their original order |
| GridWorld.Neighbors | environment.py:31-38 | a cell is listed exactly when it is one unit step away, within bounds and not a barrier; the list follows the order +x, -x, +y, -y, so it has at most four cells and no repeats |
| GridWorld.NeighborsSameBoard | environment.py:24-38 | `neighbors` depends only on the size and the barriers, so picking up tasks never changes it |
| Placement.Blank | environment.py:5-8 | the board before placement: the given size, the all-zero grid, an empty `task_locations` and an empty barrier set |
| Placement.Mark | environment.py:14 | the write `self.grid[x][y] = code` (line 21 does the same for barriers): that one cell takes the code, and every other cell, the size, the task map and the barriers stay as they were |
| Placement.EmptyGrid | environment.py:6 | the initial grid is N rows of N zeros |
| Placement.BlankConsistent | environment.py:5-8 | the empty board with no tasks and no barriers satisfies the construction invariant |
| Placement.ConsistentDisjoint | environment.py:13-21 | under the invariant, no cell is both a task and a barrier |
| Placement.PlaceTask | environment.py:12-15 | a drawn cell is taken exactly when it is neither a task nor a barrier; it is appended with number `len + 1`; otherwise nothing changes; the invariant is kept |
| Placement.PlaceTaskKeeps | environment.py:13-15 | marking an empty cell 2 and appending it to the task map keeps the grid codes agreeing with the task map and the barrier set |
| Placement.PlaceBarrier | environment.py:19-22 | a drawn cell becomes a barrier exactly when it is empty; otherwise nothing changes; the invariant is kept |
| Placement.PlaceTasks | environment.py:11-15 | the task loop reaches exactly `num_tasks` tasks, only appends to the task map, keeps the invariant and consumes a prefix of the draws |
| Placement.PlaceBarriers | environment.py:18-22 | the barrier loop reaches exactly `num_barriers` distinct barriers, leaves the tasks alone and keeps the invariant |
| Placement.Build | environment.py:4-22 | a finished board has exactly `num_tasks` tasks numbered 1..`num_tasks` in placement order and exactly `num_barriers` barriers; tasks and barriers are disjoint and on the board; the grid holds 2 at tasks, 1 at barriers and 0 elsewhere |
| Placement.PlaceTasksSucceeds | environment.py:11-15 | the task loop finishes whenever the tasks already placed plus the distinct free cells among the draws reach `num_tasks` |
| Placement.PlaceTasksConsumes | environment.py:11-15 | every draw the task loop consumed holds a task or a barrier on the board it returns |
| Placement.PlaceBarriersSucceeds | environment.py:18-22 | the barrier loop finishes whenever the barriers already placed plus the distinct free cells among the draws reach `num_barriers` |
| Placement.BuildSucceeds | environment.py:4-22 | construction finishes whenever the draws hold at least `num_tasks + num_barriers` distinct cells |
| Paths.WalkCellsAdmissible | agent.py:58-64 | every cell of a walk along `neighbors` is in bounds, is not a barrier, and is one unit step from the cell before it |
| Paths.WalkPrepend | agent.py:68-71 | putting a predecessor in front of a walk gives a walk from that predecessor |
| Paths.WalkTail | agent.py:28-30 | what remains of a walk after its first step is a walk from that step |
| Paths.WalkSameBoard | environment.py:24-38 | a walk stays a walk after tasks are picked up |
| Paths.ClosedSetContainsWalks | agent.py:52-64 | a set of cells that contains the start and is closed under `neighbors` contains every cell reachable by a walk |
| Search.EntryLe | agent.py:53 | the order `heappop` uses on `(priority, (x, y))` entries: Python's tuple comparison, by priority, then x, then y |
| Search.Estimate | agent.py:62 | the heuristic term (also used for the start entry at line 48) `self.heuristic(...) if algorithm == 'A*' else 0`: the Manhattan distance to the target in A* mode, and 0 in UCS mode |
| Search.Priority | agent.py:62 | the priority a cell is pushed with: its cost so far plus the heuristic term, so UCS orders by cost alone and A* adds the Manhattan distance to the target |
| Search.MinOf | agent.py:53 | a non-empty heap has a least entry in tuple order |
| Search.MinStep | agent.py:53 | the lesser of a new entry and the least of the rest is the least of all |
| Search.MinUnique | agent.py:53 | the least entry is unique, so `heappop` is deterministic |
| Search.InitKeeps | agent.py:46-50 | the initial heap, `came_from` and `cost_so_far` satisfy the loop invariant |
| Search.PopKeeps | agent.py:53-56 | popping a non-target entry keeps the invariant for every cell other than the popped one, and the popped cell has a recorded cost |
| Search.TreeOkUpdate | agent.py:60-64 | recording `current` as the predecessor of an improved neighbour keeps every non-start cell linked to a strictly cheaper neighbour |
| Search.RelaxKeeps | agent.py:59-64 | one relaxation keeps the whole loop invariant and lowers the termination measure |
| Search.PotentialDrops | agent.py:60-61 | recording a new cell, or lowering a recorded cost, lowers the termination measure |
| Search.CoverCurrent | agent.py:58-64 | once all its neighbours are relaxed, the expanded cell needs no heap entry |
| Search.EmptyFrontierClosed | agent.py:52 | when the heap is empty, the recorded cells are closed under `neighbors` |
| Search.Unreachable | agent.py:52-64 | if the heap empties without popping the target, no walk from the start reaches the target |
| Search.CoverAlong | agent.py:47-64 | along any walk from the start, either the least heap priority is at most the walk's length, or the cell reached after j steps has a recorded cost of at most j |
| Search.OptimalAtPop | agent.py:53-56 | when the target is popped, its recorded cost is at most the length of every walk to it, in both modes |
| Search.Expand | agent.py:58-64 | the neighbour loop leaves every neighbour recorded at most one step dearer than `current`, restores the invariant, keeps every heap entry, and lowers the measure unless nothing changed |
| Search.Explore | agent.py:46-64 | the search loop terminates; it stops either at the target with an optimal cost, or with an empty heap when no walk reaches the target |
| Search.Reconstruct | agent.py:66-72 | following `came_from` back from the last cell terminates, avoids the start, and yields a walk from the start no longer than that cell's cost |
| Search.FindPathTo | agent.py:44-72 | the path is a walk along `neighbors` from the start and excludes the start; it is empty when start and target coincide; when any walk reaches the target, it ends at the target and is no longer than that walk, so it is a shortest walk to the target |
| Search.BothModes | agent.py:47-64 | both results are walks from the start; for a reachable target, UCS and A* both end at it with paths of equal, shortest length |
| Agent.NearestIndex | agent.py:80-83 | `min` returns a nearest key, and every key before it is strictly farther |
| Agent.NearestUnique | agent.py:80-83 | nearest-and-first-among-nearest determines the index uniquely |
| Agent.FindNearestTask | agent.py:74-84 | None exactly when no task is left; otherwise a task cell at least as near as every other, and the first such cell in insertion order |
| Agent.CheckTaskCompletion | agent.py:36-42 | on a task cell, exactly that entry leaves the task map, the others keep their order, its number is appended and the counter grows by one; elsewhere nothing changes; the grid, size and barriers are untouched |
| Agent.CompletionConserves | agent.py:39-42 | each task number is either still on the board or in the record, as often as before |
| Agent.CompletionIdempotent | agent.py:36-42 | with distinct task cells, a second check at the same cell records nothing, and the task cells stay distinct |
| Agent.Move | agent.py:26-42 | with a path, the agent steps onto its head and keeps the tail; the task map loses exactly the entry `pop` removes for that cell, and its number is appended to the record exactly when the cell holds a task; with an empty path only `moving` becomes False; the counter and the record stay in step |
| Agent.MoveConserves | agent.py:26-42 | across a move, each task number is either still on the board or in the record, as often as before |
| Agent.MoveKeepsDistinct | agent.py:26-42 | a move keeps the task cells distinct |
| Agent.MoveKeeps | agent.py:26-34 | after a move the counter still equals the record's length and the rest of the path is still a walk from the new position |
| Agent.Decide | run.py:140-146 | an idle agent with tasks left plans towards its nearest task, a moving agent steps, and otherwise the agent waits |
| Agent.TickAsWritten | run.py:140-146 | the tick as written: planning stores a walk from the agent and sets it moving, and the planned path is empty when the nearest task is the agent's own cell; the board, the conserved task numbers, distinct task cells and the agent invariant are all kept |
| Agent.OwnCellCycle | run.py:140-146 | an idle agent on a task cell plans the empty path and then only stops, so after two of its own ticks it is back in exactly the same state without having collected the task; only the other agent can still take it |
| Agent.Tick | run.py:140-146 | the corrected tick: a task under an idle agent is collected; otherwise the tick plans a shortest walk or moves as written; the board, the conserved task numbers, distinct task cells and the agent invariant are all kept |
| Agent.TickBothAsWritten | run.py:139-155 | one pass over both agents as written, on the shared board, conserves every task number across the board and both records, and keeps task cells distinct and both agents' invariants |
| Agent.TickBoth | run.py:139-155 | the corrected pass, built on Agent.Tick, so an idle agent collects a task on its own cell: it keeps the same conservation, distinctness and invariant guarantees |

## Left out

- Rendering and input are not modelled: pygame, sprites, `image`, `rect`, `draw`, pixel scaling, the window, the event loop, frame timing, the start button and the statistics panel (including its "Total Path Cost", which sums task numbers).
- `random.randint` is replaced by a given sequence of candidate cells. The rejection loops in the constructor only terminate when the random draws cooperate, so `Placement.Build` returns None when the given draws run out before the counts are reached. `Placement.BuildSucceeds` shows that this happens only when the draws hold fewer than `num_tasks + num_barriers` distinct cells.
- Placement.Build: requires every draw to lie on the board, as `randint(0, grid_size - 1)` guarantees.
- OrderedMap.Pop: the miss branch returns the map unchanged where Python's `dict.pop(key)` would raise `KeyError`. The source never reaches that error, because agent.py:39 tests `in` before it calls `pop`.
- The `heapq` implementation is replaced by a multiset with extract-minimum in tuple order.
- The timing of `MOVEMENT_DELAY` is not modelled; one call of `Agent.TickBothAsWritten` or `Agent.TickBoth` is one pass that passes the delay check.
- The `algorithm` string is modelled as a datatype. Any string other than `'A*'` behaves as UCS in the source.
- Search.Reconstruct: builds the path by prepending instead of appending and then reversing, which gives the same list.
- Integers are unbounded; Python's integers are too, so no wrap-around applies.
- The unused imports `deque` and `inf` are not modelled.
- An unreachable target is handled as the code handles it: the code returns the path to the last cell popped, without raising an error or looping. An agent whose nearest task is unreachable therefore keeps re-planning; the model states this behaviour but proves no liveness property.

## Findings

| source | as written | input that shows it | evidently intended | confidence | as-written member | corrected member |
|---|---|---|---|---|---|---|
| run.py:140-146 | An idle agent whose nearest task is its own cell gets the empty path from `find_path_to`. `move` only checks for a task after it takes a step, so the agent stops again and re-plans the same empty path on every second pass. | A task drawn at (0, 0), which is where the UCS agent starts. | The agent collects the task it is standing on. | medium; not executed | Agent.OwnCellCycle, Agent.TickAsWritten, Agent.TickBothAsWritten | Agent.Tick, Agent.TickBoth |

=== FILE: agent.dfy ===
/**
  The `Agent` of `agent.py` without its sprite: a position, the path still to
  follow, the moving flag and the record of collected tasks, together with
  nearest-task selection, stepping along the path with task pickup, and the
  per-tick rule of the simulation loop that drives two agents on one board.
 */
module Agent {

  import opened Wrappers
  import opened Coord
  import opened OrderedMap
  import opened GridWorld
  import opened Paths
  import opened Search

  datatype AgentState = AgentState(
    position: Pos,
    path: seq<Pos>,
    moving: bool,
    taskCompleted: nat,
    completedTasks: seq<int>)

  /** A fresh agent placed at `position`: no path, idle, nothing collected. */
  function Spawn(position: Pos): AgentState {
    AgentState(position, [], false, 0, [])
  }

  /**
    What the agent keeps true: the counter counts the recorded tasks, and the
    path still to follow is a walk from where the agent stands.
   */
  ghost predicate AgentOk(env: Environment, a: AgentState) {
    && a.taskCompleted == |a.completedTasks|
    && Walk(env, a.position, a.path, Last(a.position, a.path))
  }

  /** A fresh agent satisfies the invariant on any board. */
  lemma SpawnOk(env: Environment, position: Pos)
    ensures AgentOk(env, Spawn(position))
    ensures !Spawn(position).moving && Spawn(position).path == []
  {
    assert Walk(env, position, [], position);
  }

  /**
    `heuristic` is consistent: one step along `neighbors` lowers the Manhattan
    distance to any target by at most the step's cost.
   */
  lemma HeuristicConsistent(env: Environment, a: Pos, b: Pos, t: Pos)
    requires b in Neighbors(env, a)
    ensures Manhattan(a, t) <= StepCost(a, b) + Manhattan(b, t)
  {
    ManhattanUnitStep(a, b, t);
  }

  /*
   * find_nearest_task
   */

  /**
    `min(keys, key=distance)`: Python's `min` keeps the running minimum and
    replaces it only by a strictly nearer key, so the result is a nearest key
    and every key before it is strictly farther.
   */
  function NearestIndex(p: Pos, tl: seq<Item<Pos, int>>): (i: nat)
    requires |tl| > 0
    ensures i < |tl|
    ensures forall k | 0 <= k < |tl| :: Manhattan(p, tl[i].key) <= Manhattan(p, tl[k].key)
    ensures forall k | 0 <= k < i :: Manhattan(p, tl[i].key) < Manhattan(p, tl[k].key)
    decreases |tl|
  {
    if |tl| == 1 then 0
    else
      var init := tl[..|tl| - 1];
      var j := NearestIndex(p, init);
      assert forall k | 0 <= k < |init| :: init[k] == tl[k];
      if Manhattan(p, tl[|tl| - 1].key) < Manhattan(p, tl[j].key) then |tl| - 1 else j
  }

  /** Nearest and first among the nearest picks out a single index. */
  lemma NearestUnique(p: Pos, tl: seq<Item<Pos, int>>, i: nat)
    requires i < |tl|
    requires forall k | 0 <= k < |tl| :: Manhattan(p, tl[i].key) <= Manhattan(p, tl[k].key)
    requires forall k | 0 <= k < i :: Manhattan(p, tl[i].key) < Manhattan(p, tl[k].key)
    ensures i == NearestIndex(p, tl)
  {
    var j := NearestIndex(p, tl);
    assert Manhattan(p, tl[i].key) == Manhattan(p, tl[j].key);
  }

  /**
    `find_nearest_task`: nothing when no task is left; otherwise a task cell
    at least as near as every other, and the first such cell in insertion
    order.
   */
  function FindNearestTask(a: AgentState, env: Environment): (r: Option<Pos>)
    ensures r.None? <==> |env.taskLocations| == 0
    ensures r.Some? ==> HasKey(env.taskLocations, r.value)
    ensures r.Some? ==> forall k | 0 <= k < |env.taskLocations| ::
      Manhattan(a.position, r.value) <= Manhattan(a.position, env.taskLocations[k].key)
    ensures r.Some? ==> exists i | 0 <= i < |env.taskLocations| ::
      && env.taskLocations[i].key == r.value
      && forall k | 0 <= k < i :: Manhattan(a.position, r.value) < Manhattan(a.position, env.taskLocations[k].key)
  {
    var tl := env.taskLocations;
    if |tl| == 0 then None
    else
      var i := NearestIndex(a.position, tl);
      Some(tl[i].key)
  }

  /*
   * check_task_completion and move
   */

  /**
    `check_task_completion`: on a task cell, that one entry leaves
    `task_locations` (the others stay, in order), its number is appended to
    `completed_tasks` and `task_completed` goes up by one. Anywhere else
    nothing changes. Only the task map of the environment is touched; the
    `grid` matrix keeps its task code.
   */
  function CheckTaskCompletion(a: AgentState, env: Environment): (r: (AgentState, Environment))
    ensures r.1 == env.(taskLocations := r.1.taskLocations)
    ensures r.0 == a.(taskCompleted := r.0.taskCompleted, completedTasks := r.0.completedTasks)
    ensures !HasKey(env.taskLocations, a.position) ==> r == (a, env)
    ensures HasKey(env.taskLocations, a.position) ==>
      exists i | 0 <= i < |env.taskLocations| ::
        && env.taskLocations[i].key == a.position
        && (forall j | 0 <= j < i :: env.taskLocations[j].key != a.position)
        && r.1.taskLocations == env.taskLocations[..i] + env.taskLocations[i + 1..]
        && r.0.completedTasks == a.completedTasks + [env.taskLocations[i].value]
        && r.0.taskCompleted == a.taskCompleted + 1
  {
    var (rest, number) := Pop(env.taskLocations, a.position);
    match number
    case None => (a, env)
    case Some(n) =>
      var i := Find(env.taskLocations, a.position).value;
      assert env.taskLocations[i].key == a.position;
      (a.(taskCompleted := a.taskCompleted + 1, completedTasks := a.completedTasks + [n]),
       env.(taskLocations := rest))
  }

  /** Tasks move from the map to the record, never lost and never duplicated. */
  lemma CompletionConserves(a: AgentState, env: Environment)
    ensures var (a', env') := CheckTaskCompletion(a, env);
      Values(env'.taskLocations) + multiset(a'.completedTasks)
        == Values(env.taskLocations) + multiset(a.completedTasks)
  {
    if HasKey(env.taskLocations, a.position) {
      PopConservesValues(env.taskLocations, a.position);
    }
  }

  /**
    With distinct task cells, the task map stays distinct, the agent's cell
    is no task any more, and a second check there records nothing.
   */
  lemma CompletionIdempotent(a: AgentState, env: Environment)
    requires DistinctKeys(env.taskLocations)
    ensures var (a', env') := CheckTaskCompletion(a, env);
      && DistinctKeys(env'.taskLocations)
      && !HasKey(env'.taskLocations, a'.position)
      && CheckTaskCompletion(a', env') == (a', env')
  {
    if HasKey(env.taskLocations, a.position) {
      PopRemovesKey(env.taskLocations, a.position);
    }
  }

  /**
    `move`: with a path left, the agent steps onto its first cell, keeps the
    rest, and collects a task found there; with none it stops moving and
    nothing else changes. Exactly when the new cell holds a task, one task
    number is appended to the record.
   */
  function Move(a: AgentState, env: Environment): (r: (AgentState, Environment))
    ensures |a.path| == 0 ==> r == (a.(moving := false), env)
    ensures |a.path| > 0 ==>
      && r.0.position == a.path[0]
      && r.0.path == a.path[1..]
      && r.0.moving == a.moving
      && (HasKey(env.taskLocations, a.path[0]) <==> |r.0.completedTasks| == |a.completedTasks| + 1)
      && (!HasKey(env.taskLocations, a.path[0]) ==> r.0.completedTasks == a.completedTasks)
      && r.1.taskLocations == Pop(env.taskLocations, a.path[0]).0
      && (HasKey(env.taskLocations, a.path[0]) ==>
            r.0.completedTasks == a.completedTasks + [Pop(env.taskLocations, a.path[0]).1.value])
    ensures SameBoard(env, r.1) && r.1.grid == env.grid
    ensures r.0.taskCompleted - |r.0.completedTasks| == a.taskCompleted - |a.completedTasks|
  {
    if |a.path| > 0 then
      CheckTaskCompletion(a.(position := a.path[0], path := a.path[1..]), env)
    else
      (a.(moving := false), env)
  }

  /** A move conserves the task numbers. */
  lemma MoveConserves(a: AgentState, env: Environment)
    ensures var (a', env') := Move(a, env);
      Values(env'.taskLocations) + multiset(a'.completedTasks)
        == Values(env.taskLocations) + multiset(a.completedTasks)
  {
    if |a.path| > 0 {
      CompletionConserves(a.(position := a.path[0], path := a.path[1..]), env);
    }
  }

  /** A move keeps the task cells distinct. */
  lemma MoveKeepsDistinct(a: AgentState, env: Environment)
    requires DistinctKeys(env.taskLocations)
    ensures DistinctKeys(Move(a, env).1.taskLocations)
  {
    if |a.path| > 0 {
      CompletionIdempotent(a.(position := a.path[0], path := a.path[1..]), env);
    }
  }

  /** A move keeps the counter in step and the rest of the path a walk. */
  lemma MoveKeeps(a: AgentState, env: Environment)
    requires AgentOk(env, a)
    ensures AgentOk(Move(a, env).1, Move(a, env).0)
  {
    var (a', env') := Move(a, env);
    if |a.path| > 0 {
      WalkTail(env, a.position, a.path, Last(a.position, a.path));
      assert Last(a.path[0], a.path[1..]) == Last(a.position, a.path);
      WalkSameBoard(env, env', a'.position, a'.path, Last(a'.position, a'.path));
    }
  }

  /*
   * One tick of the simulation loop for one agent.
   */

  /** What an agent does on a tick. */
  datatype Action = Plan(target: Pos) | Step | Idle

  /**
    The choice of the loop body: an idle agent with tasks left plans a path
    to the nearest one, a moving agent steps, and an idle agent on a board
    without tasks does nothing.
   */
  function Decide(a: AgentState, env: Environment): (act: Action)
    ensures act.Plan? <==> !a.moving && |env.taskLocations| > 0
    ensures act.Plan? ==> Some(act.target) == FindNearestTask(a, env)
    ensures act.Step? <==> a.moving
  {
    if !a.moving && |env.taskLocations| > 0 then
      match FindNearestTask(a, env)
      case Some(t) => Plan(t)
      case None => Idle
    else if a.moving then Step
    else Idle
  }

  /**
    An idle agent with an empty path standing on a task: the as-written tick
    plans the empty path, and the following move only clears the flag, so
    after two of its own ticks the agent and the board are exactly as before
    and the agent itself never collects the task. Only the other agent,
    walking onto that cell, can still take it.
   */
  lemma OwnCellCycle(a: AgentState, env: Environment)
    requires !a.moving && a.path == []
    requires HasKey(env.taskLocations, a.position)
    ensures Decide(a, env) == Plan(a.position)
    ensures Decide(a.(moving := true), env) == Step
    ensures Move(a.(moving := true), env) == (a, env)
  {
    OwnTaskNearest(a, env);
  }

  /**
    What one tick of one agent keeps: the board, every task number (on the
    board or in the record), distinct task cells and the agent invariant.
   */
  ghost predicate TickKeeps(env: Environment, a: AgentState, env': Environment, a': AgentState) {
    && SameBoard(env, env') && env'.grid == env.grid
    && Values(env'.taskLocations) + multiset(a'.completedTasks)
         == Values(env.taskLocations) + multiset(a.completedTasks)
    && (DistinctKeys(env.taskLocations) ==> DistinctKeys(env'.taskLocations))
    && (AgentOk(env, a) ==> AgentOk(env', a'))
  }

  lemma CompletionKeepsAll(a: AgentState, env: Environment)
    ensures TickKeeps(env, a, CheckTaskCompletion(a, env).1, CheckTaskCompletion(a, env).0)
  {
    var (a', env') := CheckTaskCompletion(a, env);
    CompletionConserves(a, env);
    if DistinctKeys(env.taskLocations) {
      CompletionIdempotent(a, env);
    }
    if AgentOk(env, a) {
      WalkSameBoard(env, env', a.position, a.path, Last(a.position, a.path));
    }
  }

  lemma MoveKeepsAll(a: AgentState, env: Environment)
    ensures TickKeeps(env, a, Move(a, env).1, Move(a, env).0)
  {
    MoveConserves(a, env);
    if DistinctKeys(env.taskLocations) {
      MoveKeepsDistinct(a, env);
    }
    if AgentOk(env, a) {
      MoveKeeps(a, env);
    }
  }

  /**
    The loop body as written: planning only stores the new path and sets the
    agent moving, so an agent standing on a task plans the empty path and
    does not collect it.
   */
  method TickAsWritten(a: AgentState, env: Environment, alg: Algorithm) returns (a': AgentState, env': Environment)
    ensures Decide(a, env).Plan? ==>
      && env' == env
      && a' == a.(path := a'.path, moving := true)
      && Walk(env, a.position, a'.path, Last(a.position, a'.path))
      && (Decide(a, env).target == a.position ==> a'.path == [])
    ensures Decide(a, env).Step? ==> (a', env') == Move(a, env)
    ensures Decide(a, env).Idle? ==> a' == a && env' == env
    ensures TickKeeps(env, a, env', a')
  {
    match Decide(a, env) {
    case Plan(t) =>
      var path := FindPathTo(env, a.position, t, alg);
      a', env' := a.(path := path, moving := true), env;
    case Step =>
      a', env' := Move(a, env).0, Move(a, env).1;
      MoveKeepsAll(a, env);
    case Idle =>
      a', env' := a, env;
    }
  }

  /** An idle agent standing on a task has that task as its nearest. */
  lemma OwnTaskNearest(a: AgentState, env: Environment)
    requires !a.moving && HasKey(env.taskLocations, a.position)
    ensures Decide(a, env) == Plan(a.position)
  {
    var tl := env.taskLocations;
    var i :| 0 <= i < |tl| && tl[i].key == a.position;
    assert Manhattan(a.position, Decide(a, env).target) <= Manhattan(a.position, tl[i].key);
  }

  /**
    The loop body with the pickup restored: when the nearest task is the
    agent's own cell, it is collected on the spot instead of planning an
    empty path. Otherwise the tick is as written.
   */
  method Tick(a: AgentState, env: Environment, alg: Algorithm) returns (a': AgentState, env': Environment)
    ensures Decide(a, env).Plan? && Decide(a, env).target == a.position ==>
      (a', env') == CheckTaskCompletion(a, env)
    ensures Decide(a, env).Plan? && Decide(a, env).target != a.position ==>
      && env' == env
      && a' == a.(path := a'.path, moving := true)
      && Walk(env, a.position, a'.path, Last(a.position, a'.path))
      && forall w {:trigger Walk(env, a.position, w, Decide(a, env).target)}
           | Walk(env, a.position, w, Decide(a, env).target) ::
           Last(a.position, a'.path) == Decide(a, env).target && |a'.path| <= |w|
    ensures Decide(a, env).Step? ==> (a', env') == Move(a, env)
    ensures Decide(a, env).Idle? ==> a' == a && env' == env
    ensures !a.moving && HasKey(env.taskLocations, a.position) ==>
      |a'.completedTasks| == |a.completedTasks| + 1
    ensures TickKeeps(env, a, env', a')
  {
    if !a.moving && HasKey(env.taskLocations, a.position) {
      OwnTaskNearest(a, env);
    }
    match Decide(a, env) {
    case Plan(t) =>
      if t == a.position {
        a', env' := CheckTaskCompletion(a, env).0, CheckTaskCompletion(a, env).1;
        CompletionKeepsAll(a, env);
      } else {
        var path := FindPathTo(env, a.position, t, alg);
        a', env' := a.(path := path, moving := true), env;
      }
    case Step =>
      a', env' := Move(a, env).0, Move(a, env).1;
      MoveKeepsAll(a, env);
    case Idle =>
      a', env' := a, env;
    }
  }

  /** Two hand-overs in a row, each conserving its own total, conserve the grand total. */
  lemma Relay(v0: multiset<int>, v1: multiset<int>, v2: multiset<int>,
              u0: multiset<int>, u1: multiset<int>, a0: multiset<int>, a1: multiset<int>)
    requires v1 + u1 == v0 + u0
    requires v2 + a1 == v1 + a0
    ensures v2 + u1 + a1 == v0 + u0 + a0
  {
    calc {
      v2 + u1 + a1;
      (v2 + a1) + u1;
      (v1 + a0) + u1;
      (v1 + u1) + a0;
      (v0 + u0) + a0;
    }
  }

  /**
    One pass of the simulation loop with the corrected tick: the UCS agent
    acts, then the A* agent acts on the board as the first one left it. Neither the board nor any
    task number is created or lost: each number is either still on the board
    or in exactly one agent's record, as often as before; the task cells stay
    distinct and both agents keep their invariant.
   */
  method TickBoth(ucs: AgentState, astar: AgentState, env: Environment)
    returns (ucs': AgentState, astar': AgentState, env': Environment)
    ensures SameBoard(env, env') && env'.grid == env.grid
    ensures Values(env'.taskLocations) + multiset(ucs'.completedTasks) + multiset(astar'.completedTasks)
              == Values(env.taskLocations) + multiset(ucs.completedTasks) + multiset(astar.completedTasks)
    ensures DistinctKeys(env.taskLocations) ==> DistinctKeys(env'.taskLocations)
    ensures AgentOk(env, ucs) && AgentOk(env, astar) ==> AgentOk(env', ucs') && AgentOk(env', astar')
  {
    var mid;
    ucs', mid := Tick(ucs, env, UCS);
    astar', env' := Tick(astar, mid, AStar);
    Relay(Values(env.taskLocations), Values(mid.taskLocations), Values(env'.taskLocations),
          multiset(ucs.completedTasks), multiset(ucs'.completedTasks),
          multiset(astar.completedTasks), multiset(astar'.completedTasks));
    if AgentOk(env, ucs) && AgentOk(env, astar) {
      WalkSameBoard(env, mid, astar.position, astar.path, Last(astar.position, astar.path));
      WalkSameBoard(mid, env', ucs'.position, ucs'.path, Last(ucs'.position, ucs'.path));
    }
  }

  /**
    One pass of the simulation loop exactly as written, both agents using the
    as-written tick. It keeps the same guarantees as the corrected pass.
   */
  method TickBothAsWritten(ucs: AgentState, astar: AgentState, env: Environment)
    returns (ucs': AgentState, astar': AgentState, env': Environment)
    ensures SameBoard(env, env') && env'.grid == env.grid
    ensures Values(env'.taskLocations) + multiset(ucs'.completedTasks) + multiset(astar'.completedTasks)
              == Values(env.taskLocations) + multiset(ucs.completedTasks) + multiset(astar.completedTasks)
    ensures DistinctKeys(env.taskLocations) ==> DistinctKeys(env'.taskLocations)
    ensures AgentOk(env, ucs) && AgentOk(env, astar) ==> AgentOk(env', ucs') && AgentOk(env', astar')
  {
    var mid;
    ucs', mid := TickAsWritten(ucs, env, UCS);
    astar', env' := TickAsWritten(astar, mid, AStar);
    Relay(Values(env.taskLocations), Values(mid.taskLocations), Values(env'.taskLocations),
          multiset(ucs.completedTasks), multiset(ucs'.completedTasks),
          multiset(astar.completedTasks), multiset(astar'.completedTasks));
    if AgentOk(env, ucs) && AgentOk(env, astar) {
      WalkSameBoard(env, mid, astar.position, astar.path, Last(astar.position, astar.path));
      WalkSameBoard(mid, env', ucs'.position, ucs'.path, Last(ucs'.position, ucs'.path));
    }
  }

}

=== FILE: coord.dfy ===
/** Grid coordinates and the Manhattan distance the agents use as heuristic. */
module Coord {

  /** A cell `(x, y)`; the source stores it as a tuple or a two-element list. */
  datatype Pos = Pos(x: int, y: int)

  function Abs(n: int): nat {
    if n < 0 then -n else n
  }

  /**
    `Agent.heuristic`: the Manhattan distance between two cells. It is never
    negative and vanishes exactly on equal cells.
   */
  function Manhattan(a: Pos, b: Pos): (d: nat)
    ensures d == 0 <==> a == b
  {
    Abs(a.x - b.x) + Abs(a.y - b.y)
  }

  /**
    A set of cells inside another has no more cells than it. This is a plain
    fact about finite sets; it lives here, with the cell type, because both
    the search's termination measure and the construction's counting of
    free cells need it.
   */
  lemma {:induction false} SubsetCard(a: set<Pos>, b: set<Pos>)
    requires a <= b
    ensures |a| <= |b|
    decreases |a|
  {
    if a != {} {
      var x :| x in a;
      SubsetCard(a - {x}, b - {x});
    }
  }

  /** One unit step moves the distance to any fixed cell by at most one. */
  lemma ManhattanUnitStep(a: Pos, b: Pos, t: Pos)
    requires Manhattan(a, b) == 1
    ensures Manhattan(a, t) <= 1 + Manhattan(b, t)
    ensures Manhattan(b, t) <= 1 + Manhattan(a, t)
  {
  }

}

=== FILE: grid_world.dfy ===
/**
  The grid world of `environment.py`: an N x N board whose cells are empty,
  barriers or tasks, with the bounds, passability, neighbour and step-cost
  queries the search relies on.
 */
module GridWorld {

  import opened Coord
  import opened OrderedMap

  /** Cell codes stored in `grid`. */
  const EMPTY: int := 0
  const BARRIER: int := 1
  const TASK: int := 2

  /**
    `grid` is indexed `grid[x][y]`; `taskLocations` is the insertion-ordered
    dictionary from task cell to task number; `barriers` the barrier cells.
   */
  datatype Environment = Environment(
    size: nat,
    grid: seq<seq<int>>,
    taskLocations: seq<Item<Pos, int>>,
    barriers: set<Pos>)

  /** `is_within_bounds` */
  predicate InBounds(env: Environment, p: Pos) {
    0 <= p.x < env.size && 0 <= p.y < env.size
  }

  /** `is_passable`: only barriers block; bounds are checked separately. */
  predicate IsPassable(env: Environment, p: Pos) {
    p !in env.barriers
  }

  /** `step_cost`: every move costs one. */
  function StepCost(from: Pos, to: Pos): nat {
    1
  }

  /** Rank of a unit offset in the order `(1,0), (-1,0), (0,1), (0,-1)`. */
  function DirectionRank(p: Pos, q: Pos): nat {
    if q == Pos(p.x + 1, p.y) then 0
    else if q == Pos(p.x - 1, p.y) then 1
    else if q == Pos(p.x, p.y + 1) then 2
    else 3
  }

  predicate RankIncreasing(p: Pos, cs: seq<Pos>) {
    forall i, j | 0 <= i < j < |cs| :: DirectionRank(p, cs[i]) < DirectionRank(p, cs[j])
  }

  /** The candidates of `cs` that are in bounds and passable, in their order. */
  function KeepAdmissible(env: Environment, p: Pos, cs: seq<Pos>): (r: seq<Pos>)
    ensures forall q :: q in r <==> q in cs && InBounds(env, q) && IsPassable(env, q)
    ensures RankIncreasing(p, cs) ==> RankIncreasing(p, r)
    ensures |r| <= |cs|
  {
    if |cs| == 0 then []
    else
      var rest := KeepAdmissible(env, p, cs[1..]);
      assert forall q :: q in cs <==> q == cs[0] || q in cs[1..];
      if InBounds(env, cs[0]) && IsPassable(env, cs[0]) then
        RankCons(p, cs, rest);
        [cs[0]] + rest
      else
        assert RankIncreasing(p, cs) ==> RankIncreasing(p, cs[1..]);
        rest
  }

  /** An increasing list stays increasing with its head put before any sublist of its tail. */
  lemma RankCons(p: Pos, cs: seq<Pos>, rest: seq<Pos>)
    requires |cs| > 0
    requires forall q | q in rest :: q in cs[1..]
    requires RankIncreasing(p, cs[1..]) ==> RankIncreasing(p, rest)
    ensures RankIncreasing(p, cs) ==> RankIncreasing(p, [cs[0]] + rest)
  {
    if RankIncreasing(p, cs) {
      assert RankIncreasing(p, cs[1..]);
      forall q | q in rest ensures DirectionRank(p, cs[0]) < DirectionRank(p, q) {
        var k :| 0 <= k < |cs[1..]| && cs[1..][k] == q;
        assert cs[k + 1] == q;
      }
      var r := [cs[0]] + rest;
      forall i, j | 0 <= i < j < |r| ensures DirectionRank(p, r[i]) < DirectionRank(p, r[j]) {
        if i > 0 {
          assert r[i] == rest[i - 1] && r[j] == rest[j - 1];
        } else {
          assert r[j] in rest;
        }
      }
    }
  }

  /**
    `neighbors`: the four axis-aligned cells that are inside the board and not
    barriers, in the fixed order +x, -x, +y, -y. A cell is listed exactly when
    it is one unit step away, in bounds and passable, and the listing is
    strictly increasing in direction order (so at most four, no repeats).
   */
  function Neighbors(env: Environment, p: Pos): (r: seq<Pos>)
    ensures forall q {:trigger q in r} :: q in r <==> Manhattan(p, q) == 1 && InBounds(env, q) && IsPassable(env, q)
    ensures RankIncreasing(p, r)
    ensures |r| <= 4
  {
    var east, west := Pos(p.x + 1, p.y), Pos(p.x - 1, p.y);
    var south, north := Pos(p.x, p.y + 1), Pos(p.x, p.y - 1);
    var r := KeepAdmissible(env, p, [east, west, south, north]);
    assert forall q :: Manhattan(p, q) == 1 <==> q in [east, west, south, north];
    r
  }

  /** Two environments with the same board: same size and the same barriers. */
  predicate SameBoard(env: Environment, env': Environment) {
    env.size == env'.size && env.barriers == env'.barriers
  }

  lemma {:induction false} KeepAdmissibleSameBoard(env: Environment, env': Environment, p: Pos, cs: seq<Pos>)
    requires SameBoard(env, env')
    ensures KeepAdmissible(env, p, cs) == KeepAdmissible(env', p, cs)
    decreases |cs|
  {
    if |cs| > 0 {
      KeepAdmissibleSameBoard(env, env', p, cs[1..]);
    }
  }

  /**
    `neighbors` reads only the size and the barriers: picking up tasks never
    changes it.
   */
  lemma {:induction false} NeighborsSameBoard(env: Environment, env': Environment, p: Pos)
    requires SameBoard(env, env')
    ensures Neighbors(env, p) == Neighbors(env', p)
  {
    var east, west := Pos(p.x + 1, p.y), Pos(p.x - 1, p.y);
    var south, north := Pos(p.x, p.y + 1), Pos(p.x, p.y - 1);
    KeepAdmissibleSameBoard(env, env', p, [east, west, south, north]);
  }

}

=== FILE: ordered_map.dfy ===
/**
  An insertion-ordered dictionary, the way a Python `dict` behaves: a sequence
  of key/value items, looked up by the first item carrying the key, iterated
  in insertion order, and `pop` removing one item while the others keep
  their relative order.
 */
module OrderedMap {

  import opened Wrappers

  datatype Item<K, V> = Item(key: K, value: V)

  /** No key occurs twice: what a `dict` guarantees by construction. */
  predicate DistinctKeys<K(==), V>(m: seq<Item<K, V>>) {
    forall i, j | 0 <= i < j < |m| :: m[i].key != m[j].key
  }

  /** Whether `k in d` holds for the dictionary `d` that `m` models. */
  predicate HasKey<K(==), V>(m: seq<Item<K, V>>, k: K) {
    exists i | 0 <= i < |m| :: m[i].key == k
  }

  /** The values of the dictionary, with multiplicity. */
  function Values<K(==), V>(m: seq<Item<K, V>>): multiset<V> {
    if |m| == 0 then multiset{} else multiset{m[0].value} + Values(m[1..])
  }

  /** The position of the item carrying `k`, if any. */
  function Find<K(==), V>(m: seq<Item<K, V>>, k: K): (r: Option<nat>)
    ensures r.None? <==> !HasKey(m, k)
    ensures r.Some? ==> r.value < |m| && m[r.value].key == k
    ensures r.Some? ==> forall j | 0 <= j < r.value :: m[j].key != k
  {
    if |m| == 0 then None
    else if m[0].key == k then Some(0)
    else
      match Find(m[1..], k)
      case None =>
        assert forall i | 0 <= i < |m| :: m[i].key != k by {
          forall i | 0 <= i < |m| ensures m[i].key != k {
            if i > 0 { assert m[1..][i - 1] == m[i]; }
          }
        }
        None
      case Some(i) =>
        assert m[1..][i] == m[i + 1];
        Some(i + 1)
  }

  /**
    `d.pop(k)` on a key that is present, or a lookup miss on one that is not:
    the first item carrying `k` is removed and its value returned, and every
    other item stays, in its order.
   */
  function Pop<K(==), V>(m: seq<Item<K, V>>, k: K): (r: (seq<Item<K, V>>, Option<V>))
    ensures !HasKey(m, k) ==> r.0 == m && r.1 == None
    ensures HasKey(m, k) ==>
      var i := Find(m, k).value;
      r.0 == m[..i] + m[i + 1..] && r.1 == Some(m[i].value)
  {
    if |m| == 0 then (m, None)
    else if m[0].key == k then
      assert m[..0] + m[1..] == m[1..];
      (m[1..], Some(m[0].value))
    else
      var (rest, v) := Pop(m[1..], k);
      HasKeyTail(m, k);
      if HasKey(m[1..], k) then
        var i := Find(m[1..], k).value;
        RemoveAfterHead(m, i);
        ([m[0]] + rest, v)
      else
        assert [m[0]] + m[1..] == m;
        ([m[0]] + rest, v)
  }

  /** Past a head that does not carry `k`, `k` is a key of the whole exactly when of the tail. */
  lemma HasKeyTail<K, V>(m: seq<Item<K, V>>, k: K)
    requires |m| > 0 && m[0].key != k
    ensures HasKey(m, k) <==> HasKey(m[1..], k)
  {
    if HasKey(m, k) {
      var i :| 0 <= i < |m| && m[i].key == k;
      assert m[1..][i - 1] == m[i];
    }
    if HasKey(m[1..], k) {
      var i :| 0 <= i < |m[1..]| && m[1..][i].key == k;
      assert m[i + 1] == m[1..][i];
    }
  }

  /** The keys of the dictionary, as a set: never more of them than items. */
  ghost function Keys<K(!new), V>(m: seq<Item<K, V>>): (s: set<K>)
    ensures forall k :: k in s <==> HasKey(m, k)
    ensures |s| <= |m|
    decreases |m|
  {
    if |m| == 0 then {}
    else
      var s := {m[0].key} + Keys(m[1..]);
      forall k ensures k in s <==> HasKey(m, k) {
        if k != m[0].key {
          HasKeyTail(m, k);
        }
      }
      s
  }

  /** Appending an item adds exactly its key. */
  lemma HasKeyAppend<K, V>(m: seq<Item<K, V>>, it: Item<K, V>, k: K)
    ensures HasKey(m + [it], k) <==> HasKey(m, k) || it.key == k
  {
    if HasKey(m + [it], k) && it.key != k {
      var i :| 0 <= i < |m| + 1 && (m + [it])[i].key == k;
      assert m[i] == (m + [it])[i];
    }
    if HasKey(m, k) {
      var i :| 0 <= i < |m| && m[i].key == k;
      assert (m + [it])[i] == m[i];
    }
    if it.key == k {
      assert (m + [it])[|m|] == it;
    }
  }

  /** A key of a prefix is a key of the whole. */
  lemma HasKeyPrefix<K, V>(m: seq<Item<K, V>>, m': seq<Item<K, V>>, k: K)
    requires m <= m' && HasKey(m, k)
    ensures HasKey(m', k)
  {
    var i :| 0 <= i < |m| && m[i].key == k;
    assert m'[i] == m[i];
  }

  /** Removing item `i` of the tail and putting the head back removes item `i + 1`. */
  lemma RemoveAfterHead<K, V>(m: seq<Item<K, V>>, i: nat)
    requires i + 1 < |m|
    ensures [m[0]] + (m[1..][..i] + m[1..][i + 1..]) == m[..i + 1] + m[i + 2..]
  {
    assert m[1..][..i] == m[1..i + 1];
    assert m[1..][i + 1..] == m[i + 2..];
    assert m[..i + 1] == [m[0]] + m[1..i + 1];
  }

  lemma {:induction false} ValuesConcat<K, V>(a: seq<Item<K, V>>, b: seq<Item<K, V>>)
    ensures Values(a + b) == Values(a) + Values(b)
  {
    if |a| == 0 {
      assert a + b == b;
    } else {
      assert (a + b)[1..] == a[1..] + b;
      ValuesConcat(a[1..], b);
    }
  }

  lemma {:induction false} ValuesRemoveAt<K, V>(m: seq<Item<K, V>>, i: nat)
    requires i < |m|
    ensures Values(m) == Values(m[..i] + m[i + 1..]) + multiset{m[i].value}
  {
    var a, b := m[..i], m[i + 1..];
    assert m == (a + [m[i]]) + b;
    ValuesConcat(a + [m[i]], b);
    ValuesConcat(a, [m[i]]);
    ValuesConcat(a, b);
    assert Values([m[i]]) == multiset{m[i].value} by {
      assert [m[i]][1..] == [];
    }
  }

  /** Popping a present key moves exactly its value out of the dictionary. */
  lemma PopConservesValues<K, V>(m: seq<Item<K, V>>, k: K)
    requires HasKey(m, k)
    ensures var (rest, v) := Pop(m, k); v.Some? && Values(m) == Values(rest) + multiset{v.value}
  {
    ValuesRemoveAt(m, Find(m, k).value);
  }

  /** The items left after removing position `i`, by their old positions. */
  lemma RemoveAt<K, V>(m: seq<Item<K, V>>, i: nat, j: nat)
    requires i < |m| && j < |m| - 1
    ensures (m[..i] + m[i + 1..])[j] == m[if j < i then j else j + 1]
  {
  }

  /**
    Popping keeps the keys distinct, and afterwards the key is gone: a second
    `pop` of the same key finds nothing.
   */
  lemma PopRemovesKey<K, V>(m: seq<Item<K, V>>, k: K)
    requires DistinctKeys(m)
    ensures DistinctKeys(Pop(m, k).0)
    ensures !HasKey(Pop(m, k).0, k)
  {
    if HasKey(m, k) {
      var i := Find(m, k).value;
      var r := m[..i] + m[i + 1..];
      assert Pop(m, k).0 == r;
      forall j | 0 <= j < |r| ensures r[j].key != k {
        RemoveAt(m, i, j);
      }
      forall j1, j2 | 0 <= j1 < j2 < |r| ensures r[j1].key != r[j2].key {
        RemoveAt(m, i, j1);
        RemoveAt(m, i, j2);
      }
    }
  }

}

=== FILE: paths.dfy ===
/**
  Walks on the grid: sequences of cells in which each cell is a `neighbors`
  entry of the one before. A path as the agent stores it excludes the cell
  it starts from, so `Walk(env, a, p, b)` speaks of the chain `[a] + p`.
 */
module Paths {

  import opened Coord
  import opened GridWorld

  /** Where following `p` from `from` ends up. */
  function Last(from: Pos, p: seq<Pos>): Pos {
    if |p| == 0 then from else p[|p| - 1]
  }

  ghost predicate Linked(env: Environment, c: seq<Pos>, i: int)
    requires 0 <= i < |c| - 1
  {
    c[i + 1] in Neighbors(env, c[i])
  }

  ghost predicate IsChain(env: Environment, c: seq<Pos>) {
    forall i | 0 <= i < |c| - 1 :: Linked(env, c, i)
  }

  ghost predicate Walk(env: Environment, a: Pos, p: seq<Pos>, b: Pos) {
    IsChain(env, [a] + p) && Last(a, p) == b
  }

  /** Every cell a walk enters is on the board, not a barrier, and one unit step on. */
  lemma WalkCellsAdmissible(env: Environment, a: Pos, p: seq<Pos>, b: Pos)
    requires Walk(env, a, p, b)
    ensures forall i | 0 <= i < |p| :: InBounds(env, p[i]) && IsPassable(env, p[i])
    ensures forall i | 0 <= i < |p| :: Manhattan(if i == 0 then a else p[i - 1], p[i]) == 1
  {
    var c := [a] + p;
    forall i | 0 <= i < |p|
      ensures InBounds(env, p[i]) && IsPassable(env, p[i])
      ensures Manhattan(if i == 0 then a else p[i - 1], p[i]) == 1
    {
      assert Linked(env, c, i);
      assert c[i + 1] == p[i] && c[i] == if i == 0 then a else p[i - 1];
    }
  }

  /** Stepping back to a cell of which the walk's first cell is a neighbour. */
  lemma {:induction false} WalkPrepend(env: Environment, a: Pos, n: Pos, p: seq<Pos>, b: Pos)
    requires Walk(env, n, p, b)
    requires n in Neighbors(env, a)
    ensures Walk(env, a, [n] + p, b)
  {
    var c, c' := [n] + p, [a] + ([n] + p);
    forall i | 0 <= i < |c'| - 1 ensures Linked(env, c', i) {
      if i > 0 {
        assert Linked(env, c, i - 1);
        assert c'[i] == c[i - 1] && c'[i + 1] == c[i];
      }
    }
    assert Last(a, [n] + p) == Last(n, p);
  }

  /**
    The Manhattan distance never exceeds the number of steps left: from cell
    `j` of a chain to its last cell there are at least as many steps as the
    distance between them. This makes the distance an admissible estimate.
   */
  lemma {:induction false} ManhattanBound(env: Environment, c: seq<Pos>, j: nat)
    requires IsChain(env, c)
    requires j < |c|
    ensures Manhattan(c[j], c[|c| - 1]) <= |c| - 1 - j
    decreases |c| - j
  {
    if j < |c| - 1 {
      ManhattanBound(env, c, j + 1);
      assert Linked(env, c, j);
      ManhattanUnitStep(c[j], c[j + 1], c[|c| - 1]);
    }
  }

  /**
    A set of cells that contains `a` and all `neighbors` of each of its cells
    contains every cell a walk from `a` reaches.
   */
  lemma {:induction false} ClosedSetContainsWalks(env: Environment, s: set<Pos>, a: Pos, p: seq<Pos>, b: Pos)
    requires a in s
    requires forall u, v | u in s && v in Neighbors(env, u) :: v in s
    requires Walk(env, a, p, b)
    ensures b in s
  {
    var c := [a] + p;
    var k := 0;
    while k < |c| - 1
      invariant 0 <= k <= |c| - 1
      invariant c[k] in s
    {
      assert Linked(env, c, k);
      k := k + 1;
    }
    assert c[|c| - 1] == Last(a, p);
  }

  /** The rest of a walk after its first step is a walk from that step. */
  lemma {:induction false} WalkTail(env: Environment, a: Pos, p: seq<Pos>, b: Pos)
    requires Walk(env, a, p, b) && |p| > 0
    ensures Walk(env, p[0], p[1..], b)
  {
    var c, c' := [a] + p, [p[0]] + p[1..];
    assert c' == p;
    forall i | 0 <= i < |c'| - 1 ensures Linked(env, c', i) {
      assert Linked(env, c, i + 1);
      assert c[i + 1] == c'[i] && c[i + 2] == c'[i + 1];
    }
  }

  /** A walk stays a walk on any environment with the same board. */
  lemma {:induction false} WalkSameBoard(env: Environment, env': Environment, a: Pos, p: seq<Pos>, b: Pos)
    requires SameBoard(env, env') && Walk(env, a, p, b)
    ensures Walk(env', a, p, b)
  {
    var c := [a] + p;
    forall i | 0 <= i < |c| - 1 ensures Linked(env', c, i) {
      assert Linked(env, c, i);
      NeighborsSameBoard(env, env', c[i]);
    }
  }

}

=== FILE: placement.dfy ===
/**
  Construction of the grid world (`Environment.__init__`). The source draws
  random cells until enough of them were free; here the draws are an explicit
  sequence of in-bounds cells, consumed one by one: first tasks, then
  barriers, from the same stream.
 */
module Placement {

  import opened Wrappers
  import opened Coord
  import opened OrderedMap
  import opened GridWorld

  function EmptyGrid(n: nat): (g: seq<seq<int>>)
    ensures |g| == n
    ensures forall x | 0 <= x < n :: |g[x]| == n
    ensures forall x, y | 0 <= x < n && 0 <= y < n :: g[x][y] == EMPTY
  {
    seq(n, _ => seq(n, _ => EMPTY))
  }

  /** The board before any placement: all cells empty, no tasks, no barriers. */
  function Blank(size: nat): Environment {
    Environment(size, EmptyGrid(size), [], {})
  }

  predicate WellShaped(env: Environment) {
    |env.grid| == env.size && forall x | 0 <= x < env.size :: |env.grid[x]| == env.size
  }

  function Cell(env: Environment, p: Pos): int
    requires WellShaped(env) && InBounds(env, p)
  {
    env.grid[p.x][p.y]
  }

  /** Writes one cell code, leaving every other cell and field as it was. */
  function Mark(env: Environment, p: Pos, code: int): (r: Environment)
    requires WellShaped(env) && InBounds(env, p)
    ensures WellShaped(r)
    ensures r.size == env.size && r.taskLocations == env.taskLocations && r.barriers == env.barriers
    ensures forall q | InBounds(env, q) :: Cell(r, q) == if q == p then code else Cell(env, q)
  {
    env.(grid := env.grid[p.x := env.grid[p.x][p.y := code]])
  }

  /** The code of one in-bounds cell says what occupies it. */
  ghost predicate CellAgrees(env: Environment, p: Pos)
    requires WellShaped(env) && InBounds(env, p)
  {
    && (Cell(env, p) == TASK <==> HasKey(env.taskLocations, p))
    && (Cell(env, p) == BARRIER <==> p in env.barriers)
    && (Cell(env, p) == EMPTY <==> !HasKey(env.taskLocations, p) && p !in env.barriers)
  }

  /**
    The construction invariant: tasks are numbered 1, 2, ... in placement
    order under distinct cells, every task and barrier is on the board, and
    each cell's code is 2 at tasks, 1 at barriers and 0 elsewhere.
   */
  ghost predicate Consistent(env: Environment) {
    && WellShaped(env)
    && DistinctKeys(env.taskLocations)
    && (forall i | 0 <= i < |env.taskLocations| :: env.taskLocations[i].value == i + 1)
    && (forall i | 0 <= i < |env.taskLocations| :: InBounds(env, env.taskLocations[i].key))
    && (forall b | b in env.barriers :: InBounds(env, b))
    && (forall p | InBounds(env, p) :: CellAgrees(env, p))
  }

  /** Under the invariant no cell is both a task and a barrier. */
  lemma ConsistentDisjoint(env: Environment, p: Pos)
    requires Consistent(env)
    ensures !(HasKey(env.taskLocations, p) && p in env.barriers)
  {
    if HasKey(env.taskLocations, p) {
      var i :| 0 <= i < |env.taskLocations| && env.taskLocations[i].key == p;
      assert CellAgrees(env, p);
    }
  }

  /** Under the invariant every task cell is on the board and off the barriers. */
  lemma TasksOffBarriers(env: Environment)
    requires Consistent(env)
    ensures forall p | HasKey(env.taskLocations, p) :: InBounds(env, p) && p !in env.barriers
  {
    forall p | HasKey(env.taskLocations, p) ensures InBounds(env, p) && p !in env.barriers {
      ConsistentDisjoint(env, p);
    }
  }

  lemma BlankConsistent(size: nat)
    ensures Consistent(Blank(size))
  {
    var env := Blank(size);
    forall p | InBounds(env, p) ensures CellAgrees(env, p) {
      assert Cell(env, p) == EMPTY;
    }
  }

  /**
    One draw of the task loop: the cell becomes task number `len + 1` exactly
    when its code is 0, which under the invariant means it holds neither a
    task nor a barrier; otherwise nothing changes. The invariant is kept.
   */
  function PlaceTask(env: Environment, c: Pos): (r: Environment)
    requires WellShaped(env) && InBounds(env, c)
    ensures WellShaped(r) && r.size == env.size && r.barriers == env.barriers
    ensures Cell(env, c) == EMPTY ==>
      r.taskLocations == env.taskLocations + [Item(c, |env.taskLocations| + 1)]
    ensures Cell(env, c) != EMPTY ==> r == env
    ensures Consistent(env) ==>
      Consistent(r) && (Cell(env, c) == EMPTY <==> !HasKey(env.taskLocations, c) && c !in env.barriers)
  {
    if Cell(env, c) == EMPTY then
      var r := Mark(env, c, TASK).(taskLocations := env.taskLocations + [Item(c, |env.taskLocations| + 1)]);
      PlaceTaskKeeps(env, c, r);
      r
    else
      env
  }

  lemma PlaceTaskKeeps(env: Environment, c: Pos, r: Environment)
    requires WellShaped(env) && InBounds(env, c) && Cell(env, c) == EMPTY
    requires r == Mark(env, c, TASK).(taskLocations := env.taskLocations + [Item(c, |env.taskLocations| + 1)])
    ensures Consistent(env) ==> Consistent(r)
  {
    if Consistent(env) {
      var tl, tl' := env.taskLocations, r.taskLocations;
      assert CellAgrees(env, c);
      forall q ensures HasKey(tl', q) <==> HasKey(tl, q) || q == c {
        if HasKey(tl', q) {
          var i :| 0 <= i < |tl'| && tl'[i].key == q;
          if i < |tl| { assert tl[i] == tl'[i]; }
        }
        if HasKey(tl, q) {
          var i :| 0 <= i < |tl| && tl[i].key == q;
          assert tl'[i] == tl[i];
        }
        if q == c { assert tl'[|tl|].key == c; }
      }
      forall i, j | 0 <= i < j < |tl'| ensures tl'[i].key != tl'[j].key {
        if j == |tl| {
          assert tl'[i] == tl[i];
          assert HasKey(tl, tl[i].key);
        }
      }
      forall p | InBounds(r, p) ensures CellAgrees(r, p) {
        assert CellAgrees(env, p);
      }
    }
  }

  /** One draw of the barrier loop, accepted exactly when the cell's code is 0. */
  function PlaceBarrier(env: Environment, c: Pos): (r: Environment)
    requires WellShaped(env) && InBounds(env, c)
    ensures WellShaped(r) && r.size == env.size && r.taskLocations == env.taskLocations
    ensures Cell(env, c) == EMPTY ==> r.barriers == env.barriers + {c}
    ensures Cell(env, c) != EMPTY ==> r == env
    ensures Consistent(env) ==>
      Consistent(r) && (Cell(env, c) == EMPTY <==> !HasKey(env.taskLocations, c) && c !in env.barriers)
  {
    if Cell(env, c) == EMPTY then
      var r := Mark(env, c, BARRIER).(barriers := env.barriers + {c});
      assert Consistent(env) ==> Consistent(r) by {
        if Consistent(env) {
          assert CellAgrees(env, c);
          forall p | InBounds(r, p) ensures CellAgrees(r, p) {
            assert CellAgrees(env, p);
          }
        }
      }
      r
    else
      env
  }

  /**
    The task loop: draws are consumed until `numTasks` tasks exist. `None`
    when the draws run out first (the source would keep drawing). The result
    extends the task list in placement order and returns the unused draws.
   */
  function PlaceTasks(env: Environment, draws: seq<Pos>, numTasks: nat): (r: Option<(Environment, seq<Pos>)>)
    requires WellShaped(env) && forall c | c in draws :: InBounds(env, c)
    ensures r.Some? ==> var (e, rest) := r.value;
      && WellShaped(e) && e.size == env.size && e.barriers == env.barriers
      && |e.taskLocations| >= numTasks
      && (|env.taskLocations| < numTasks ==> |e.taskLocations| == numTasks)
      && env.taskLocations <= e.taskLocations
      && |rest| <= |draws| && rest == draws[|draws| - |rest|..]
      && (Consistent(env) ==> Consistent(e))
    decreases |draws|
  {
    if |env.taskLocations| >= numTasks then Some((env, draws))
    else if |draws| == 0 then None
    else
      var next := PlaceTask(env, draws[0]);
      DrawsTail(draws);
      var r := PlaceTasks(next, draws[1..], numTasks);
      if r.Some? then
        SuffixOfTail(draws, r.value.1);
        assert env.taskLocations <= next.taskLocations;
        r
      else
        r
  }

  lemma DrawsTail(draws: seq<Pos>)
    requires |draws| > 0
    ensures forall c | c in draws[1..] :: c in draws
  {
  }

  /** A suffix of the tail is a suffix of the whole. */
  lemma SuffixOfTail(draws: seq<Pos>, rest: seq<Pos>)
    requires |draws| > 0
    requires |rest| <= |draws[1..]| && rest == draws[1..][|draws[1..]| - |rest|..]
    ensures |rest| <= |draws| && rest == draws[|draws| - |rest|..]
  {
    assert draws[1..][|draws[1..]| - |rest|..] == draws[|draws| - |rest|..];
  }

  /** The barrier loop, like `PlaceTasks` but counting distinct barrier cells. */
  function PlaceBarriers(env: Environment, draws: seq<Pos>, numBarriers: nat): (r: Option<Environment>)
    requires WellShaped(env) && forall c | c in draws :: InBounds(env, c)
    ensures r.Some? ==> var e := r.value;
      && WellShaped(e) && e.size == env.size && e.taskLocations == env.taskLocations
      && |e.barriers| >= numBarriers
      && (|env.barriers| < numBarriers ==> |e.barriers| == numBarriers)
      && env.barriers <= e.barriers
      && (Consistent(env) ==> Consistent(e))
    decreases |draws|
  {
    if |env.barriers| >= numBarriers then Some(env)
    else if |draws| == 0 then None
    else
      DrawsTail(draws);
      PlaceBarriers(PlaceBarrier(env, draws[0]), draws[1..], numBarriers)
  }

  /** The drawn cells that hold neither a task nor a barrier on `env`. */
  ghost function FreeDraws(env: Environment, draws: seq<Pos>): set<Pos> {
    set c | c in draws && !HasKey(env.taskLocations, c) && c !in env.barriers
  }

  /** A set that keeps all but one element of another is at most one smaller. */
  lemma AllButOne(a: set<Pos>, b: set<Pos>, c: Pos)
    requires forall x | x in a && x != c :: x in b
    ensures |a| <= |b| + 1
  {
    SubsetCard(a - {c}, b);
  }

  /**
    The task loop gets stuck only when the draws run out of free cells: if
    the tasks already placed plus the distinct free cells among the draws
    reach `numTasks`, the loop finishes.
   */
  lemma {:induction false} PlaceTasksSucceeds(env: Environment, draws: seq<Pos>, numTasks: nat)
    requires Consistent(env) && forall c | c in draws :: InBounds(env, c)
    requires |env.taskLocations| + |FreeDraws(env, draws)| >= numTasks
    ensures PlaceTasks(env, draws, numTasks).Some?
    decreases |draws|
  {
    if |env.taskLocations| < numTasks {
      if |draws| == 0 {
        assert false;
      }
      var c := draws[0];
      var next := PlaceTask(env, c);
      DrawsTail(draws);
      if !HasKey(env.taskLocations, c) && c !in env.barriers {
        forall x | x in FreeDraws(env, draws) && x != c ensures x in FreeDraws(next, draws[1..]) {
          HasKeyAppend(env.taskLocations, Item(c, |env.taskLocations| + 1), x);
        }
        AllButOne(FreeDraws(env, draws), FreeDraws(next, draws[1..]), c);
      } else {
        SubsetCard(FreeDraws(env, draws), FreeDraws(next, draws[1..]));
      }
      PlaceTasksSucceeds(next, draws[1..], numTasks);
    }
  }

  /** Every draw the task loop consumed is occupied on the board it returns. */
  lemma {:induction false} PlaceTasksConsumes(env: Environment, draws: seq<Pos>, numTasks: nat)
    requires Consistent(env) && forall c | c in draws :: InBounds(env, c)
    requires PlaceTasks(env, draws, numTasks).Some?
    ensures var (e, rest) := PlaceTasks(env, draws, numTasks).value;
      forall c | c in draws && c !in rest :: HasKey(e.taskLocations, c) || c in e.barriers
    decreases |draws|
  {
    if |env.taskLocations| < numTasks {
      var c := draws[0];
      var next := PlaceTask(env, c);
      DrawsTail(draws);
      PlaceTasksConsumes(next, draws[1..], numTasks);
      var (e, rest) := PlaceTasks(next, draws[1..], numTasks).value;
      if c !in rest {
        if HasKey(next.taskLocations, c) {
          HasKeyPrefix(next.taskLocations, e.taskLocations, c);
        } else {
          HasKeyAppend(env.taskLocations, Item(c, |env.taskLocations| + 1), c);
        }
      }
    }
  }

  /**
    Likewise for the barrier loop: if the barriers already placed plus the
    distinct free cells among the draws reach `numBarriers`, it finishes.
   */
  lemma {:induction false} PlaceBarriersSucceeds(env: Environment, draws: seq<Pos>, numBarriers: nat)
    requires Consistent(env) && forall c | c in draws :: InBounds(env, c)
    requires |env.barriers| + |FreeDraws(env, draws)| >= numBarriers
    ensures PlaceBarriers(env, draws, numBarriers).Some?
    decreases |draws|
  {
    if |env.barriers| < numBarriers {
      if |draws| == 0 {
        assert false;
      }
      var c := draws[0];
      var next := PlaceBarrier(env, c);
      DrawsTail(draws);
      if !HasKey(env.taskLocations, c) && c !in env.barriers {
        AllButOne(FreeDraws(env, draws), FreeDraws(next, draws[1..]), c);
      } else {
        SubsetCard(FreeDraws(env, draws), FreeDraws(next, draws[1..]));
      }
      PlaceBarriersSucceeds(next, draws[1..], numBarriers);
    }
  }

  /**
    `Environment(grid_size, num_tasks, num_barriers)` fed with the given
    draws. When the draws suffice, the result has exactly `numTasks` tasks
    numbered 1..`numTasks` in placement order, exactly `numBarriers` distinct
    barriers, and satisfies the construction invariant.
   */
  function Build(size: nat, numTasks: nat, numBarriers: nat, draws: seq<Pos>): (r: Option<Environment>)
    requires forall c | c in draws :: 0 <= c.x < size && 0 <= c.y < size
    ensures r.Some? ==> var e := r.value;
      && e.size == size
      && Consistent(e)
      && |e.taskLocations| == numTasks
      && (forall i | 0 <= i < numTasks :: e.taskLocations[i].value == i + 1)
      && |e.barriers| == numBarriers
      && (forall p | HasKey(e.taskLocations, p) :: InBounds(e, p) && p !in e.barriers)
  {
    BlankConsistent(size);
    match PlaceTasks(Blank(size), draws, numTasks)
    case None => None
    case Some((e, rest)) =>
      assert forall c | c in rest :: c in draws;
      match PlaceBarriers(e, rest, numBarriers)
      case None => None
      case Some(e2) =>
        TasksOffBarriers(e2);
        Some(e2)
  }

  /**
    After the task loop on a board without barriers, every distinct drawn
    cell is either a task or a free cell among the draws left over.
   */
  lemma LeftoverFree(e: Environment, draws: seq<Pos>, rest: seq<Pos>)
    requires e.barriers == {}
    requires forall c | c in draws && c !in rest :: HasKey(e.taskLocations, c) || c in e.barriers
    ensures |set c | c in draws| <= |FreeDraws(e, rest)| + |e.taskLocations|
  {
    var drawn := set c | c in draws;
    var keys := Keys(e.taskLocations);
    assert drawn <= FreeDraws(e, rest) + keys;
    SubsetCard(drawn, FreeDraws(e, rest) + keys);
  }

  /**
    Construction finishes whenever the draws contain at least
    `numTasks + numBarriers` distinct cells: every new cell becomes a task
    until there are enough, and the draws left over still hold enough cells
    that are not tasks for the barriers.
   */
  lemma BuildSucceeds(size: nat, numTasks: nat, numBarriers: nat, draws: seq<Pos>)
    requires forall c | c in draws :: 0 <= c.x < size && 0 <= c.y < size
    requires |set c | c in draws| >= numTasks + numBarriers
    ensures Build(size, numTasks, numBarriers, draws).Some?
  {
    TaskPhase(size, numTasks, draws);
    var (e, rest) := PlaceTasks(Blank(size), draws, numTasks).value;
    PlaceBarriersSucceeds(e, rest, numBarriers);
  }

  /** On the blank board every drawn cell is free. */
  lemma BlankFree(size: nat, draws: seq<Pos>)
    ensures FreeDraws(Blank(size), draws) == set c | c in draws
  {
  }

  /** The task phase of `BuildSucceeds`: it finishes and leaves enough free draws. */
  lemma TaskPhase(size: nat, numTasks: nat, draws: seq<Pos>)
    requires forall c | c in draws :: 0 <= c.x < size && 0 <= c.y < size
    requires |set c | c in draws| >= numTasks
    ensures PlaceTasks(Blank(size), draws, numTasks).Some?
    ensures var (e, rest) := PlaceTasks(Blank(size), draws, numTasks).value;
      && Consistent(e) && e.size == size
      && (forall c | c in rest :: InBounds(e, c))
      && |set c | c in draws| <= |FreeDraws(e, rest)| + numTasks
  {
    var blank := Blank(size);
    BlankConsistent(size);
    BlankFree(size, draws);
    PlaceTasksSucceeds(blank, draws, numTasks);
    PlaceTasksConsumes(blank, draws, numTasks);
    var (e, rest) := PlaceTasks(blank, draws, numTasks).value;
    LeftoverFree(e, draws, rest);
    assert forall c | c in rest :: c in draws;
  }

}

=== FILE: search.dfy ===
/**
  `Agent.find_path_to`: one best-first search that is Uniform Cost Search
  when the priority is the cost so far and A* when the Manhattan distance to
  the target is added. The frontier is a heap of `(priority, (x, y))` tuples;
  here it is a multiset whose pop takes the least tuple in lexicographic
  order. There is no closed set: a cell whose cost improves is pushed again,
  and stale heap entries are popped and expanded again with the cell's
  current cost.
 */
module Search {

  import opened Wrappers
  import opened Coord
  import opened GridWorld
  import opened Paths

  /** The `algorithm` argument: `'A*'` adds the heuristic, anything else is UCS. */
  datatype Algorithm = UCS | AStar

  /** A heap entry `(priority, (x, y))`. */
  datatype Entry = Entry(priority: int, pos: Pos)

  /** Python's tuple order on heap entries: priority, then x, then y. */
  predicate EntryLe(a: Entry, b: Entry) {
    || a.priority < b.priority
    || (a.priority == b.priority && a.pos.x < b.pos.x)
    || (a.priority == b.priority && a.pos.x == b.pos.x && a.pos.y <= b.pos.y)
  }

  /** The heuristic term of the priority. */
  function Estimate(alg: Algorithm, n: Pos, target: Pos): nat {
    if alg == AStar then Manhattan(n, target) else 0
  }

  /** The priority a cell is pushed with when its cost so far is `g`. */
  function Priority(alg: Algorithm, g: nat, n: Pos, target: Pos): int {
    g + Estimate(alg, n, target)
  }

  predicate IsMin(e: Entry, frontier: multiset<Entry>) {
    forall f {:trigger EntryLe(e, f)} | f in frontier :: EntryLe(e, f)
  }

  lemma {:induction false} MinBelow(top: Entry, frontier: multiset<Entry>, e: Entry)
    requires IsMin(top, frontier)
    ensures e in frontier ==> top.priority <= e.priority
  {
    if e in frontier {
      assert EntryLe(top, e);
    }
  }

  /** `heappop` always has a least entry to return. */
  ghost function MinOf(frontier: multiset<Entry>): (m: Entry)
    requires |frontier| > 0
    ensures m in frontier && IsMin(m, frontier)
    decreases |frontier|
  {
    var e :| e in frontier;
    var rest := frontier - multiset{e};
    if |rest| == 0 then
      assert frontier == multiset{e};
      e
    else
      var r := MinOf(rest);
      MinStep(e, r, rest, frontier);
      if EntryLe(e, r) then e else r
  }

  /** The lesser of a new entry and the least of the rest is the least of all. */
  lemma {:induction false} MinStep(e: Entry, r: Entry, rest: multiset<Entry>, frontier: multiset<Entry>)
    requires IsMin(r, rest) && frontier == rest + multiset{e}
    ensures IsMin(if EntryLe(e, r) then e else r, frontier)
  {
    var m := if EntryLe(e, r) then e else r;
    forall f | f in frontier ensures EntryLe(m, f) {
      if f != e {
        assert EntryLe(r, f);
      }
    }
  }

  /**
    The least entry is unique, so the pop is deterministic, as `heapq` is
    on tuples that differ.
   */
  lemma {:induction false} MinUnique(a: Entry, b: Entry, frontier: multiset<Entry>)
    requires a in frontier && IsMin(a, frontier)
    requires b in frontier && IsMin(b, frontier)
    ensures a == b
  {
    assert EntryLe(a, b) && EntryLe(b, a);
  }

  /*
   * Invariants of the search loop. Each quantifier ranges over a small
   * per-cell predicate and fires only where that predicate is mentioned.
   */

  /**
    A recorded cell other than the start is a neighbour of its recorded
    predecessor, which is recorded too and strictly cheaper.
   */
  ghost predicate LinkOk(env: Environment, start: Pos, cost: map<Pos, nat>, came: map<Pos, Option<Pos>>, u: Pos)
    requires u in cost && u in came
  {
    u != start ==>
      && came[u].Some?
      && came[u].value in cost
      && u in Neighbors(env, came[u].value)
      && cost[came[u].value] < cost[u]
  }

  /**
    `came_from` and `cost_so_far` share their keys; the start has cost 0 and
    no predecessor; every other recorded cell is linked to a cheaper one.
   */
  ghost predicate TreeOk(env: Environment, start: Pos, cost: map<Pos, nat>, came: map<Pos, Option<Pos>>) {
    && start in cost && cost[start] == 0
    && came.Keys == cost.Keys
    && came[start] == None
    && forall u {:trigger LinkOk(env, start, cost, came, u)} | u in cost :: LinkOk(env, start, cost, came, u)
  }

  /** A heap entry names a recorded cell and promises no less than its current priority. */
  ghost predicate EntryOk(alg: Algorithm, target: Pos, cost: map<Pos, nat>, e: Entry) {
    e.pos in cost && e.priority >= Priority(alg, cost[e.pos], e.pos, target)
  }

  ghost predicate EntriesOk(alg: Algorithm, target: Pos, cost: map<Pos, nat>, frontier: multiset<Entry>) {
    forall e {:trigger EntryOk(alg, target, cost, e)} | e in frontier :: EntryOk(alg, target, cost, e)
  }

  /** All neighbours of `u` are recorded at most one step dearer than `u`. */
  ghost predicate Relaxed(env: Environment, cost: map<Pos, nat>, u: Pos)
    requires u in cost
  {
    forall v | v in Neighbors(env, u) :: v in cost && cost[v] <= cost[u] + 1
  }

  /** `u` waits in the heap at its current priority. */
  ghost predicate Pending(alg: Algorithm, target: Pos, cost: map<Pos, nat>, frontier: multiset<Entry>, u: Pos)
    requires u in cost
  {
    Entry(Priority(alg, cost[u], u, target), u) in frontier
  }

  ghost predicate CellCovered(env: Environment, alg: Algorithm, target: Pos, cost: map<Pos, nat>,
                              frontier: multiset<Entry>, u: Pos)
    requires u in cost
  {
    Pending(alg, target, cost, frontier, u) || Relaxed(env, cost, u)
  }

  /** Every recorded cell outside `except` is pending or relaxed. */
  ghost predicate Covered(env: Environment, alg: Algorithm, target: Pos, cost: map<Pos, nat>,
                          frontier: multiset<Entry>, except: set<Pos>) {
    forall u {:trigger CellCovered(env, alg, target, cost, frontier, u)} | u in cost && u !in except ::
      CellCovered(env, alg, target, cost, frontier, u)
  }

  ghost predicate HasEntry(frontier: multiset<Entry>, p: Pos) {
    exists e | e in frontier :: e.pos == p
  }

  /*
   * Termination: a cell enters `cost_so_far` once, with a cost below the
   * number of recorded cells, and afterwards its cost only decreases.
   */

  /** The cells the search can record: the board and the start. */
  ghost function Universe(env: Environment, start: Pos): set<Pos> {
    (set x: int, y: int | 0 <= x < env.size && 0 <= y < env.size :: Pos(x, y)) + {start}
  }

  lemma {:induction false} InUniverse(env: Environment, start: Pos, p: Pos)
    requires InBounds(env, p)
    ensures p in Universe(env, start)
  {
    assert p == Pos(p.x, p.y);
  }

  ghost predicate Bounded(universe: set<Pos>, cost: map<Pos, nat>) {
    && cost.Keys <= universe
    && forall u | u in cost :: cost[u] < |cost.Keys|
  }

  ghost function Pick(m: map<Pos, nat>): Pos
    requires |m| > 0
  {
    var k :| k in m; k
  }

  /** The sum of all recorded costs. */
  ghost function Weight(m: map<Pos, nat>): nat
    decreases |m|
  {
    if |m| == 0 then 0
    else
      var k := Pick(m);
      assert |m - {k}| < |m| by { assert (m - {k}).Keys == m.Keys - {k}; }
      m[k] + Weight(m - {k})
  }

  lemma {:induction false} WeightRemove(m: map<Pos, nat>, k: Pos)
    requires k in m
    ensures Weight(m) == m[k] + Weight(m - {k})
    decreases |m|
  {
    var j := Pick(m);
    assert (m - {j}).Keys == m.Keys - {j};
    if j != k {
      WeightRemove(m - {j}, k);
      assert (m - {k}).Keys == m.Keys - {k};
      WeightRemove(m - {k}, j);
      assert m - {j} - {k} == m - {k} - {j};
    }
  }

  lemma {:induction false} WeightUpdate(m: map<Pos, nat>, k: Pos, v: nat)
    ensures k in m ==> Weight(m[k := v]) == Weight(m) - m[k] + v
    ensures k !in m ==> Weight(m[k := v]) == Weight(m) + v
  {
    WeightRemove(m[k := v], k);
    if k in m {
      WeightRemove(m, k);
      assert m[k := v] - {k} == m - {k};
    } else {
      assert m[k := v] - {k} == m;
    }
  }

  /** `k * m` by repeated addition, which keeps the solver in linear arithmetic. */
  ghost function Times(k: nat, m: int): nat {
    if m <= 0 then 0 else k + Times(k, m - 1)
  }

  /** Recorded costs, plus `|universe|` for each cell not recorded yet. */
  ghost function Potential(universe: set<Pos>, cost: map<Pos, nat>): nat {
    Weight(cost) + Times(|universe|, |universe| - |cost.Keys|)
  }

  lemma {:induction false} TimesStep(k: nat, m: int)
    requires m > 0
    ensures Times(k, m) == k + Times(k, m - 1)
  {
  }

  lemma {:induction false} KeysGrow(cost: map<Pos, nat>, n: Pos, g: nat)
    requires n !in cost
    ensures |cost[n := g].Keys| == |cost.Keys| + 1
  {
    assert cost[n := g].Keys == cost.Keys + {n};
  }

  lemma {:induction false} PotentialDropsNew(universe: set<Pos>, cost: map<Pos, nat>, n: Pos, g: nat)
    requires n !in cost && g <= |cost.Keys| < |universe|
    ensures Potential(universe, cost[n := g]) < Potential(universe, cost)
  {
    var k, c := |universe|, |cost.Keys|;
    WeightUpdate(cost, n, g);
    KeysGrow(cost, n, g);
    TimesStep(k, k - c);
  }

  lemma {:induction false} PotentialDropsLower(universe: set<Pos>, cost: map<Pos, nat>, n: Pos, g: nat)
    requires n in cost && g < cost[n]
    ensures Potential(universe, cost[n := g]) < Potential(universe, cost)
  {
    WeightUpdate(cost, n, g);
    assert cost[n := g].Keys == cost.Keys;
  }

  /** Room is left in the universe for a cell not recorded yet. */
  lemma {:induction false} RoomForNew(universe: set<Pos>, cost: map<Pos, nat>, n: Pos)
    requires cost.Keys <= universe && n in universe && n !in cost
    ensures |cost.Keys| < |universe|
  {
    SubsetCard(cost.Keys + {n}, universe);
  }

  /** Recording a new cell at a cost below the count, or lowering a cost, lowers the potential. */
  lemma {:induction false} PotentialDrops(universe: set<Pos>, cost: map<Pos, nat>, n: Pos, g: nat)
    requires Bounded(universe, cost) && n in universe
    requires n !in cost ==> g <= |cost.Keys|
    requires n in cost ==> g < cost[n]
    ensures Potential(universe, cost[n := g]) < Potential(universe, cost)
  {
    if n in cost {
      PotentialDropsLower(universe, cost, n, g);
    } else {
      RoomForNew(universe, cost, n);
      PotentialDropsNew(universe, cost, n, g);
    }
  }

  /** Everything the search loop keeps, with `except` the cell being expanded. */
  ghost predicate SearchInv(env: Environment, alg: Algorithm, start: Pos, target: Pos, universe: set<Pos>,
                            cost: map<Pos, nat>, came: map<Pos, Option<Pos>>, frontier: multiset<Entry>,
                            except: set<Pos>) {
    && TreeOk(env, start, cost, came)
    && EntriesOk(alg, target, cost, frontier)
    && Covered(env, alg, target, cost, frontier, except)
    && Bounded(universe, cost)
    && (target in cost ==> HasEntry(frontier, target))
  }

  /* One relaxation `cost_so_far[next] = new_cost; heappush(...); came_from[next] = current`. */

  lemma {:induction false} TreeOkUpdate(env: Environment, start: Pos, cost: map<Pos, nat>, came: map<Pos, Option<Pos>>,
                                        current: Pos, next: Pos, g: nat)
    requires TreeOk(env, start, cost, came)
    requires current in cost && next in Neighbors(env, current) && g == cost[current] + 1
    requires next !in cost || g < cost[next]
    ensures TreeOk(env, start, cost[next := g], came[next := Some(current)])
  {
    var cost', came' := cost[next := g], came[next := Some(current)];
    assert next != start;
    forall u | u in cost' ensures LinkOk(env, start, cost', came', u) {
      if u != next {
        assert LinkOk(env, start, cost, came, u);
      }
    }
  }

  lemma {:induction false} EntriesOkUpdate(alg: Algorithm, target: Pos, cost: map<Pos, nat>, frontier: multiset<Entry>,
                                           next: Pos, g: nat)
    requires EntriesOk(alg, target, cost, frontier)
    requires next !in cost || g < cost[next]
    ensures EntriesOk(alg, target, cost[next := g], frontier + multiset{Entry(Priority(alg, g, next, target), next)})
  {
    var cost', pushed := cost[next := g], Entry(Priority(alg, g, next, target), next);
    forall e | e in frontier + multiset{pushed} ensures EntryOk(alg, target, cost', e) {
      if e != pushed {
        assert EntryOk(alg, target, cost, e);
      }
    }
  }

  lemma {:induction false} CoveredUpdate(env: Environment, alg: Algorithm, target: Pos, cost: map<Pos, nat>,
                                         frontier: multiset<Entry>, current: Pos, next: Pos, g: nat)
    requires Covered(env, alg, target, cost, frontier, {current})
    requires next !in cost || g < cost[next]
    ensures Covered(env, alg, target, cost[next := g], frontier + multiset{Entry(Priority(alg, g, next, target), next)}, {current})
  {
    var cost', frontier' := cost[next := g], frontier + multiset{Entry(Priority(alg, g, next, target), next)};
    forall u | u in cost' && u !in {current}
      ensures CellCovered(env, alg, target, cost', frontier', u)
    {
      if u != next {
        assert CellCovered(env, alg, target, cost, frontier, u);
        if Pending(alg, target, cost, frontier, u) {
          assert Pending(alg, target, cost', frontier', u);
        } else {
          assert Relaxed(env, cost', u);
        }
      } else {
        assert Pending(alg, target, cost', frontier', u);
      }
    }
  }

  lemma {:induction false} BoundedUpdate(universe: set<Pos>, cost: map<Pos, nat>, current: Pos, next: Pos, g: nat)
    requires Bounded(universe, cost) && next in universe
    requires current in cost && g == cost[current] + 1
    requires next !in cost || g < cost[next]
    ensures Bounded(universe, cost[next := g])
  {
    if next !in cost {
      assert cost[next := g].Keys == cost.Keys + {next};
    } else {
      assert cost[next := g].Keys == cost.Keys;
    }
  }

  /** One relaxation keeps the whole invariant and lowers the potential. */
  lemma {:induction false} RelaxKeeps(env: Environment, alg: Algorithm, start: Pos, target: Pos, universe: set<Pos>,
                                      cost: map<Pos, nat>, came: map<Pos, Option<Pos>>, frontier: multiset<Entry>,
                                      current: Pos, next: Pos, g: nat)
    requires universe == Universe(env, start)
    requires SearchInv(env, alg, start, target, universe, cost, came, frontier, {current})
    requires current in cost && next in Neighbors(env, current) && g == cost[current] + 1
    requires next !in cost || g < cost[next]
    ensures SearchInv(env, alg, start, target, universe, cost[next := g], came[next := Some(current)],
                      frontier + multiset{Entry(Priority(alg, g, next, target), next)}, {current})
    ensures Potential(universe, cost[next := g]) < Potential(universe, cost)
  {
    var pushed := Entry(Priority(alg, g, next, target), next);
    InUniverse(env, start, next);
    PotentialDrops(universe, cost, next, g);
    TreeOkUpdate(env, start, cost, came, current, next, g);
    EntriesOkUpdate(alg, target, cost, frontier, next, g);
    CoveredUpdate(env, alg, target, cost, frontier, current, next, g);
    BoundedUpdate(universe, cost, current, next, g);
    if target in cost[next := g] {
      if target == next {
        assert pushed in frontier + multiset{pushed};
      } else {
        var e :| e in frontier && e.pos == target;
        assert e in frontier + multiset{pushed};
      }
    }
  }

  /** Once all its neighbours are relaxed, the expanded cell is covered too. */
  lemma {:induction false} CoverCurrent(env: Environment, alg: Algorithm, target: Pos, cost: map<Pos, nat>,
                                        frontier: multiset<Entry>, current: Pos)
    requires Covered(env, alg, target, cost, frontier, {current})
    requires current in cost && Relaxed(env, cost, current)
    ensures Covered(env, alg, target, cost, frontier, {})
  {
    forall u | u in cost ensures CellCovered(env, alg, target, cost, frontier, u) {
      if u != current {
        assert CellCovered(env, alg, target, cost, frontier, u);
      }
    }
  }

  /** `heappop`: removing the least entry leaves every other cell covered. */
  lemma {:induction false} PopKeeps(env: Environment, alg: Algorithm, start: Pos, target: Pos, universe: set<Pos>,
                                    cost: map<Pos, nat>, came: map<Pos, Option<Pos>>, frontier: multiset<Entry>,
                                    top: Entry)
    requires SearchInv(env, alg, start, target, universe, cost, came, frontier, {})
    requires top in frontier && top.pos != target
    ensures SearchInv(env, alg, start, target, universe, cost, came, frontier - multiset{top}, {top.pos})
    ensures top.pos in cost
  {
    var rest := frontier - multiset{top};
    assert EntryOk(alg, target, cost, top);
    forall e | e in rest ensures EntryOk(alg, target, cost, e) {
      assert EntryOk(alg, target, cost, e);
    }
    forall u | u in cost && u !in {top.pos} ensures CellCovered(env, alg, target, cost, rest, u) {
      assert CellCovered(env, alg, target, cost, frontier, u);
      if Pending(alg, target, cost, frontier, u) {
        assert Pending(alg, target, cost, rest, u);
      }
    }
    if target in cost {
      var e :| e in frontier && e.pos == target;
      assert e in rest;
    }
  }

  /** With the heap empty every recorded cell is relaxed: the recorded set is closed. */
  lemma {:induction false} EmptyFrontierClosed(env: Environment, alg: Algorithm, target: Pos, cost: map<Pos, nat>)
    requires Covered(env, alg, target, cost, multiset{}, {})
    ensures forall u, v | u in cost.Keys && v in Neighbors(env, u) :: v in cost.Keys
  {
    forall u, v | u in cost.Keys && v in Neighbors(env, u) ensures v in cost.Keys {
      assert CellCovered(env, alg, target, cost, multiset{}, u);
    }
  }

  /*
   * Optimality.
   */

  /**
    Along any walk from the start, either the cell after `j` steps is
    recorded at cost at most `j`, or the least heap entry has priority at
    most the walk's length: follow the walk while the cells are relaxed; the
    first one that is not is pending, and its priority is its cost plus an
    estimate that never exceeds the steps left.
   */
  lemma {:induction false} CoverAlong(env: Environment, alg: Algorithm, start: Pos, target: Pos,
                                      cost: map<Pos, nat>, frontier: multiset<Entry>, top: Entry,
                                      w: seq<Pos>, j: nat)
    requires start in cost && cost[start] == 0
    requires Covered(env, alg, target, cost, frontier, {})
    requires IsMin(top, frontier)
    requires Walk(env, start, w, target)
    requires j <= |w|
    ensures top.priority <= |w| || (([start] + w)[j] in cost && cost[([start] + w)[j]] <= j)
  {
    var c := [start] + w;
    if j > 0 && top.priority > |w| {
      CoverAlong(env, alg, start, target, cost, frontier, top, w, j - 1);
      var u := c[j - 1];
      assert Linked(env, c, j - 1);
      assert c[|c| - 1] == target;
      ManhattanBound(env, c, j - 1);
      MinBelow(top, frontier, Entry(Priority(alg, cost[u], u, target), u));
      assert CellCovered(env, alg, target, cost, frontier, u);
      assert c[j] in Neighbors(env, u);
    }
  }

  /**
    When the target is popped, its recorded cost is no more than the length
    of any walk from the start to it.
   */
  lemma {:induction false} OptimalAtPop(env: Environment, alg: Algorithm, start: Pos, target: Pos,
                                        cost: map<Pos, nat>, frontier: multiset<Entry>, top: Entry, w: seq<Pos>)
    requires start in cost && cost[start] == 0
    requires Covered(env, alg, target, cost, frontier, {})
    requires EntriesOk(alg, target, cost, frontier)
    requires top in frontier && IsMin(top, frontier) && top.pos == target
    requires Walk(env, start, w, target)
    ensures target in cost && cost[target] <= |w|
  {
    CoverAlong(env, alg, start, target, cost, frontier, top, w, |w|);
    assert ([start] + w)[|w|] == target;
    assert EntryOk(alg, target, cost, top);
  }

  /*
   * The search.
   */

  /** The heap `[(0, start)]` with `cost_so_far = {start: 0}` satisfies the invariant. */
  lemma {:induction false} InitKeeps(env: Environment, alg: Algorithm, start: Pos, target: Pos)
    ensures SearchInv(env, alg, start, target, Universe(env, start), map[start := 0], map[start := None],
                      multiset{Entry(Priority(alg, 0, start, target), start)}, {})
  {
    var cost, came := map[start := 0], map[start := None];
    var first := Entry(Priority(alg, 0, start, target), start);
    var frontier := multiset{first};
    assert Pending(alg, target, cost, frontier, start);
    assert CellCovered(env, alg, target, cost, frontier, start);
    assert EntryOk(alg, target, cost, first);
    assert LinkOk(env, start, cost, came, start);
    assert first in frontier;
  }

  /** A heap that ran dry without the target means no walk reaches the target. */
  lemma {:induction false} Unreachable(env: Environment, alg: Algorithm, start: Pos, target: Pos, universe: set<Pos>,
                                       cost: map<Pos, nat>, came: map<Pos, Option<Pos>>)
    requires SearchInv(env, alg, start, target, universe, cost, came, multiset{}, {})
    ensures forall w {:trigger Walk(env, start, w, target)} :: !Walk(env, start, w, target)
  {
    EmptyFrontierClosed(env, alg, target, cost);
    forall w ensures Walk(env, start, w, target) ==> target in cost {
      if Walk(env, start, w, target) {
        ClosedSetContainsWalks(env, cost.Keys, start, w, target);
      }
    }
  }

  /**
    The `for next_pos in neighbors(current)` loop: relaxes every neighbour of
    `current` through it, pushing each improved cell with its new priority and
    recording `current` as its predecessor. Afterwards every neighbour is
    recorded at most one step dearer than `current`, the invariant holds
    again, nothing was taken off the heap, and unless nothing changed the
    potential fell.
   */
  method Expand(env: Environment, alg: Algorithm, start: Pos, target: Pos, ghost universe: set<Pos>,
                current: Pos, cost0: map<Pos, nat>, came0: map<Pos, Option<Pos>>, frontier0: multiset<Entry>)
    returns (cost: map<Pos, nat>, came: map<Pos, Option<Pos>>, frontier: multiset<Entry>)
    requires current in cost0
    requires universe == Universe(env, start)
    requires SearchInv(env, alg, start, target, universe, cost0, came0, frontier0, {current})
    ensures SearchInv(env, alg, start, target, universe, cost, came, frontier, {})
    ensures frontier0 <= frontier
    ensures current in cost && cost[current] == cost0[current]
    ensures forall v | v in Neighbors(env, current) :: v in cost && cost[v] <= cost[current] + 1
    ensures Potential(universe, cost) < Potential(universe, cost0) || (cost == cost0 && frontier == frontier0)
  {
    var nbrs := Neighbors(env, current);
    cost, came, frontier := cost0, came0, frontier0;
    var i := 0;
    while i < |nbrs|
      invariant 0 <= i <= |nbrs|
      invariant current in cost && cost[current] == cost0[current]
      invariant SearchInv(env, alg, start, target, universe, cost, came, frontier, {current})
      invariant forall j | 0 <= j < i :: nbrs[j] in cost && cost[nbrs[j]] <= cost[current] + 1
      invariant frontier0 <= frontier
      invariant Potential(universe, cost) < Potential(universe, cost0) || (cost == cost0 && frontier == frontier0)
    {
      var next := nbrs[i];
      var newCost := cost[current] + StepCost(current, next);
      if next !in cost || newCost < cost[next] {
        RelaxKeeps(env, alg, start, target, universe, cost, came, frontier, current, next, newCost);
        cost := cost[next := newCost];
        var priority := Priority(alg, newCost, next, target);
        frontier := frontier + multiset{Entry(priority, next)};
        came := came[next := Some(current)];
      }
      i := i + 1;
    }
    assert Relaxed(env, cost, current);
    CoverCurrent(env, alg, target, cost, frontier, current);
  }

  /**
    The `while frontier` loop. It stops either by popping the target, after
    which the target's recorded cost is at most the length of any walk to
    it, or with the heap empty, and then no walk from the start reaches the
    target. `last` is the cell popped last.
   */
  method Explore(env: Environment, start: Pos, target: Pos, alg: Algorithm)
    returns (cost: map<Pos, nat>, came: map<Pos, Option<Pos>>, last: Pos, ghost reached: bool)
    ensures TreeOk(env, start, cost, came)
    ensures last in cost
    ensures reached ==> last == target
    ensures reached ==> forall w {:trigger Walk(env, start, w, target)} | Walk(env, start, w, target) ::
      cost[target] <= |w|
    ensures !reached ==> forall w {:trigger Walk(env, start, w, target)} :: !Walk(env, start, w, target)
  {
    ghost var universe := Universe(env, start);
    var frontier := multiset{Entry(Priority(alg, 0, start, target), start)};
    came := map[start := None];
    cost := map[start := 0];
    last := start;
    reached := false;
    InitKeeps(env, alg, start, target);
    while |frontier| > 0
      invariant SearchInv(env, alg, start, target, universe, cost, came, frontier, {})
      invariant last in cost
      invariant !reached
      decreases Potential(universe, cost), |frontier|
    {
      var top :| top in frontier && IsMin(top, frontier) by {
        assert MinOf(frontier) in frontier;
      }
      last := top.pos;
      if last == target {
        assert EntryOk(alg, target, cost, top);
        forall w | Walk(env, start, w, target) ensures cost[target] <= |w| {
          OptimalAtPop(env, alg, start, target, cost, frontier, top, w);
        }
        reached := true;
        break;
      }
      PopKeeps(env, alg, start, target, universe, cost, came, frontier, top);
      frontier := frontier - multiset{top};
      cost, came, frontier := Expand(env, alg, start, target, universe, last, cost, came, frontier);
    }
    if !reached {
      Unreachable(env, alg, start, target, universe, cost, came);
    }
  }

  /**
    The reconstruction loop: follows `came_from` from `last` back to the
    start. The source appends and then reverses; prepending gives the same
    list. Costs strictly fall along the links, so the loop ends, and the
    result is a walk from the start to `last` no longer than `last`'s cost.
   */
  method Reconstruct(env: Environment, start: Pos, cost: map<Pos, nat>, came: map<Pos, Option<Pos>>, last: Pos)
    returns (path: seq<Pos>)
    requires TreeOk(env, start, cost, came)
    requires last in cost
    ensures Walk(env, start, path, last)
    ensures start !in path
    ensures |path| <= cost[last]
  {
    path := [];
    var node := last;
    while node != start
      invariant node in cost
      invariant Walk(env, node, path, last)
      invariant start !in path
      invariant |path| + cost[node] <= cost[last]
      decreases cost[node]
    {
      assert LinkOk(env, start, cost, came, node);
      var prev := came[node].value;
      WalkPrepend(env, prev, node, path, last);
      path := [node] + path;
      node := prev;
    }
  }

  /**
    `find_path_to(target, algorithm)` from `start`. The result is a walk from
    the start through `neighbors` (so on the board and off barriers) that
    never re-enters the start; it is empty when the start is the target. If
    any walk reaches the target, the result ends at the target and is no
    longer than any such walk, in both modes, so it is a shortest walk to the
    target. If none does, the heap runs dry and, as in the
    source, the result leads to the last cell popped instead.
   */
  method FindPathTo(env: Environment, start: Pos, target: Pos, alg: Algorithm)
    returns (path: seq<Pos>)
    ensures Walk(env, start, path, Last(start, path))
    ensures start !in path
    ensures start == target ==> path == []
    ensures forall w {:trigger Walk(env, start, w, target)} | Walk(env, start, w, target) ::
      Last(start, path) == target && |path| <= |w|
  {
    var cost, came, last, reached := Explore(env, start, target, alg);
    path := Reconstruct(env, start, cost, came, last);
    if reached {
      assert cost[target] <= |path|;
    }
    assert Walk(env, start, [], start);
  }

  /**
    The two agents' modes agree on length: both results are walks from the
    start, and for a reachable target the uniform-cost path and the A* path
    both end at the target and are equally long and shortest.
   */
  method BothModes(env: Environment, start: Pos, target: Pos) returns (viaUcs: seq<Pos>, viaAStar: seq<Pos>)
    ensures Walk(env, start, viaUcs, Last(start, viaUcs))
    ensures Walk(env, start, viaAStar, Last(start, viaAStar))
    ensures forall w {:trigger Walk(env, start, w, target)} | Walk(env, start, w, target) ::
      && Last(start, viaUcs) == target && Last(start, viaAStar) == target
      && |viaUcs| == |viaAStar| <= |w|
  {
    viaUcs := FindPathTo(env, start, target, UCS);
    viaAStar := FindPathTo(env, start, target, AStar);
  }

}

=== FILE: wrappers.dfy ===
/** The optional value a Python function returns when it may answer `None`. */
module Wrappers {

  datatype Option<+T> = None | Some(value: T)

}
